=== FILE: README.md ===
# simpleperf `stat`: summary synthesis and option validation

This project models the report core of the `simpleperf stat` command
(`simpleperf/cmd_stat.cpp`) in Dafny and proves properties of it.

The `stat` command counts hardware and software performance events while it
runs a workload. When the run ends it reads every counter once and reports
one line per event. Producing that report takes four steps, each modelled
here:

- **Aggregation** (`Aggregation`). The readings of one event selection are
  summed as `uint64_t` values. A reading whose running time is zero is
  skipped. The sums give a multiplexing *scale*: enabled time divided by
  running time, or 1.
- **Summaries** (`Summary`, `ReadableCount`). A `CounterSummary` holds:
  - the event type name, modifier and group;
  - the summed count and the scale;
  - the count in readable form: thousands separated by commas in the
    table, plain digits in CSV, and milliseconds for the clock events;
  - a comment.

  Two summaries are "monitored at the same time" when they share a group,
  or when both scales lie within 1e-5 of 1.
- **Synthesis** (`Summaries`). Lookup is first-match on (type name,
  modifier). Suppose a user-space (`:u`) summary has a kernel-space (`:k`)
  partner that was monitored at the same time, and no unmodified summary of
  that type exists. Then a combined summary is appended, whose count is the
  `uint64_t` sum of the two.
- **Comments** (`Comments`). Each summary gets a derived metric. The rule is
  chosen in a fixed priority order:
  1. task-clock: cpus used;
  2. cpu-clock: blank;
  3. cpu-cycles: GHz;
  4. instructions: cycles per instruction, when a cpu-cycles partner exists;
  5. `-misses` events: miss rate, when a reference partner exists;
  6. otherwise: a rate with a G/M/K prefix.

  Rates are extrapolated by `duration / scale`.

`Report` composes these steps into the summary list that `ShowCounters`
prints. It proves that the loops as written compute it.

`StatOptions` models `ParseOptions`:

- The option scan consumes options, and the one value after each option that takes one. It stops at the first argument after these that does not start with `-`; the rest is the workload.
- Every option that takes a value fails when the value is missing.
- `--duration` must parse completely and be positive.
- Options take effect in order; a later `--duration` replaces an earlier one, and `-p`/`-t` lists add up.
- `-a` cannot be combined with `-p`/`-t`, in either order, and needs root.
- `--duration` cannot be combined with a command. Used alone, it becomes the
  workload `sleep <duration>`.

`StatOptions` also models `AddDefaultMeasuredEventTypes`.

Helpers whose code is not part of this model are fields of the
`StatOptions.Collaborators` parameter:

- `IsRoot`;
- `AddEventType` and `AddEventGroup`;
- the cpu and thread list parsers;
- `strtod` with its end-pointer and `ERANGE` checks;
- `"%f"` formatting;
- the kernel-support test for default events.

Files:

- `base.dfy`: `Results` (`Option`, `Result`) and `UInt64` (the `u64` type and wrapping addition).
- `readable_count.dfy`: the readable count text.
- `counter_summary.dfy`: the `CounterSummary` record, `Name`, and the "monitored" predicates.
- `aggregation.dfy`: the aggregation loop and the scale.
- `summaries.dfy`: `FindSummary` and `AutoGenerateSummaries`.
- `comments.dfy`: `GetCommentForSummary` and `GenerateComments`.
- `report.dfy`: the `ShowCounters` pipeline.
- `options.dfy`: `ParseOptions` and `AddDefaultMeasuredEventTypes`.

Two details of the code that are easy to miss:

- **Rate prefixes.** The units are picked with strict comparisons: G when the rate is above 1e9, M above 1e6, K above 1e3. A rate of exactly 1e9 is therefore shown in M.
- **Scale when nothing ran.** The scale is 1 when the running-time sum is 0, as well as when it is at least the enabled-time sum.

## Model

| member | source | states |
|---|---|---|
| UInt64.AddWrap | simpleperf/cmd_stat.cpp:577-579 | the `uint64_t` `+=`: the exact sum when it fits in 64 bits, otherwise the sum minus 2^64 |
| Aggregation.SumCounters | simpleperf/cmd_stat.cpp:571-581 | the three accumulators are the totals of value, enabled time and running time over exactly the readings with nonzero running time, modulo 2^64 |
| Aggregation.SumStep | simpleperf/cmd_stat.cpp:574-580 | one reading moves each wrapped sum by that reading's value if it ran, and leaves it unchanged otherwise |
| Aggregation.IdleReadingIgnored | simpleperf/cmd_stat.cpp:574-576 | removing a reading with zero running time from anywhere in the list leaves every sum unchanged |
| Aggregation.RanSplit | simpleperf/cmd_stat.cpp:574-576 | the filter of readings that ran distributes over concatenation |
| Aggregation.Scale | simpleperf/cmd_stat.cpp:582-585 | the scale is at least 1; it is exactly 1 iff running time is 0 or at least enabled time; otherwise scale × running = enabled |
| Aggregation.Summarize | simpleperf/cmd_stat.cpp:586-589 | the summary of a selection carries its type name, modifier and group, is not generated, has a blank comment and a scale ≥ 1, and shows the readable form of its count |
| Aggregation.SummarizeSelection | simpleperf/cmd_stat.cpp:570-590 | one outer iteration as written yields the summary whose count is the wrapped value sum and whose scale is 1 exactly in the no-multiplexing cases |
| Aggregation.SummarizeAll | simpleperf/cmd_stat.cpp:570-591 | one summary per selection, in selection order |
| Summary.MakeSummary | simpleperf/cmd_stat.cpp:63-73 | the constructor stores its arguments, starts with an empty comment, and holds the readable form of its own count |
| Summary.IsMonitoredAllTheTime | simpleperf/cmd_stat.cpp:115-123 | an event counts as monitored all the time exactly when its scale lies strictly between 1 - 1e-5 and 1 + 1e-5 |
| Summary.IsMonitoredAtTheSameTime | simpleperf/cmd_stat.cpp:75-82 | two summaries in one group always ran at the same time; across groups they did exactly when both scales lie strictly within 1e-5 of 1 |
| Summary.SameTimeProperties | simpleperf/cmd_stat.cpp:75-82 | "monitored at the same time" is reflexive and symmetric, holds within a group, and across groups holds iff both scales lie strictly within 1e-5 of 1 |
| Summary.Name | simpleperf/cmd_stat.cpp:84-89 | the name starts with the type name; it is exactly the type name when the modifier is empty, and otherwise continues with ':' followed by exactly the modifier |
| Summary.NameRoundTrip | simpleperf/cmd_stat.cpp:84-89 | for a type name without ':', splitting the name at its first ':' gives back the type name and the modifier |
| Summary.NameInjective | simpleperf/cmd_stat.cpp:84-89 | two summaries whose type names contain no ':' have equal names only if they have equal keys |
| ReadableCount.ReadableCountValue | simpleperf/cmd_stat.cpp:92-113 | task-clock and cpu-clock (and only they) show the nanosecond count as milliseconds; every other event shows its decimal digits |
| ReadableCount.DigitText | simpleperf/cmd_stat.cpp:100-111 | removing the commas gives the decimal count back; in CSV mode the text is plain digits whose value is the count; in table mode a comma stands exactly at every fourth position from the right, never first; counts below 1000 have no comma |
| ReadableCount.GroupThousands | simpleperf/cmd_stat.cpp:104-109 | the in-place insertion loop as written yields exactly the digits grouped in threes from the right |
| ReadableCount.GroupStep | simpleperf/cmd_stat.cpp:104-109 | one iteration of the insertion loop (a comma when three digits have passed, then one digit left) keeps the already-processed tail grouped in threes |
| ReadableCount.GroupedShape | simpleperf/cmd_stat.cpp:98-111 | grouping keeps the digits in order, puts a comma exactly where the distance from the end is a multiple of 4, never leads with a comma, and leaves ≤ 3 digits alone |
| ReadableCount.CommasShape | simpleperf/cmd_stat.cpp:104-109 | each block of three digits gets one leading comma; stripping the commas restores the digits |
| ReadableCount.DecimalRoundTrip | simpleperf/cmd_stat.cpp:100 | reading back the `%PRIu64` digits of a count gives the count |
| ReadableCount.DecimalCanonical | simpleperf/cmd_stat.cpp:100 | a digit string without leading zeros is the printed form of its value |
| ReadableCount.ReadableCountExample | simpleperf/cmd_stat.cpp:98-99 | 1234567 reads "1234567" in CSV and "1,234,567" in the table; task-clock 2000000 ns is shown in milliseconds |
| Summaries.FindSummary | simpleperf/cmd_stat.cpp:133-141 | the result is the first entry with the key, and there is none exactly when no entry has the key |
| Summaries.FindUnaffected | simpleperf/cmd_stat.cpp:133-141 | appending entries without the key does not change the lookup |
| Summaries.FindStable | simpleperf/cmd_stat.cpp:133-141 | a key already present is found at the same place after an append |
| Summaries.Combine | simpleperf/cmd_stat.cpp:155-157 | the combined summary takes the user-space type, group and scale, has no modifier, is marked generated, and counts the `uint64_t` sum of both counts |
| Summaries.AutoGenerateUpTo | simpleperf/cmd_stat.cpp:148-162 | after any number of iterations the originals are untouched, every appended entry combines an eligible user-space summary with its first kernel-space partner, appended type names are distinct, and every eligible entry seen so far is covered |
| Summaries.AutoGenerate | simpleperf/cmd_stat.cpp:148-162 | the synthesis over the whole list meets `Synthesized`: originals untouched, each appended summary justified by a `:u` summary and its first same-time `:k` partner, type names distinct, and every eligible `:u` summary covered |
| Summaries.AutoGenerateSummaries | simpleperf/cmd_stat.cpp:148-162 | the loop over the growing vector as written ends with the same list as the reference synthesis |
| Summaries.AutoGenerateAppendsOnly | simpleperf/cmd_stat.cpp:154-157 | synthesis only appends, and what it appends has an empty modifier and is marked generated |
| Summaries.AutoGenerateContent | simpleperf/cmd_stat.cpp:149-158 | each appended summary has a `:u` source and a `:k` partner of its type name, monitored at the same time, and no unmodified summary of that type existed; its count is their wrapped sum; its group and scale are the user-space ones; no two appended summaries share a type name |
| Summaries.AutoGenerateComplete | simpleperf/cmd_stat.cpp:151-158 | every user-space summary whose first kernel-space partner ran at the same time ends up with an unmodified summary of its type |
| Summaries.AutoGenerateNoDuplicates | simpleperf/cmd_stat.cpp:154 | if the originals have at most one unmodified summary per type name, so does the result |
| Summaries.AutoGenerateIdempotent | simpleperf/cmd_stat.cpp:148-162 | running the synthesis again appends nothing |
| Summaries.UserKernelExample | simpleperf/cmd_stat.cpp:143-147 | `branch-misses:u` 30 and `branch-misses:k` 20 in one group give one generated `branch-misses` summary counting 50 |
| Comments.RateOf | simpleperf/cmd_stat.cpp:243 | the rate times the duration is the count times the scale |
| Comments.RateComment | simpleperf/cmd_stat.cpp:244-253 | G iff rate > 1e9, M iff 1e6 < rate ≤ 1e9, K iff 1e3 < rate ≤ 1e6, no prefix otherwise; the shown value times the prefix is the rate, and a prefixed value lies in (1, 1000] below G |
| Comments.ReferenceName | simpleperf/cmd_stat.cpp:226-234 | cache-misses pairs with cache-references, branch-misses with branch-instructions, any other `X-misses` with `Xs` |
| Comments.ReferenceNameOfBase | simpleperf/cmd_stat.cpp:231-234 | for every other base name `X`, `X-misses` pairs with `Xs` |
| Comments.CyclesPartner | simpleperf/cmd_stat.cpp:218-219 | the partner is the first cpu-cycles summary with the same modifier, as `FindSummary` returns it, and there is one only when that summary was monitored at the same time |
| Comments.MissReference | simpleperf/cmd_stat.cpp:235-237 | the partner is the first summary of the reference name with the same modifier, as `FindSummary` returns it, and there is one only when that summary was monitored at the same time and has a nonzero count |
| Comments.SelectRule | simpleperf/cmd_stat.cpp:205-243 | the rule chosen is the first that applies in the order task-clock, cpu-clock, cpu-cycles, cycles per instruction, miss rate, rate; each condition is stated as an iff |
| Comments.CommentFor | simpleperf/cmd_stat.cpp:197-254 | the comment kind follows the rule; cpus used, GHz and rates equal the count extrapolated by duration/scale; cycles per instruction and miss rate are the ratios of the counts to the partner's |
| Comments.CpusUsedComment | simpleperf/cmd_stat.cpp:205-209 | cpus used × duration = (count / 1e9) × scale |
| Comments.FrequencyComment | simpleperf/cmd_stat.cpp:213-216 | GHz × 1e9 × duration = count × scale |
| Comments.CpiComment | simpleperf/cmd_stat.cpp:220 | cycles per instruction × instructions = cycles |
| Comments.MissRateComment | simpleperf/cmd_stat.cpp:238-239 | miss rate × references = misses × 100 |
| Comments.FallbackComment | simpleperf/cmd_stat.cpp:243-253 | the shown rate times its prefix, times the duration, equals count × scale |
| Comments.MissRateExample | simpleperf/cmd_stat.cpp:225-241 | 50 branch misses against 1000 branch instructions is a 5% miss rate |
| Comments.CpiExample | simpleperf/cmd_stat.cpp:217-224 | 2e9 cycles over 1e9 instructions is 2 cycles per instruction |
| Comments.RateExample | simpleperf/cmd_stat.cpp:243-249 | 5,000,000 events in one second at scale 1 is 5 M/sec |
| Comments.CommentIgnoresComments | simpleperf/cmd_stat.cpp:164-168 | a comment depends only on the summaries' keys, groups, counts and scales, not on comments already assigned |
| Comments.SameLookup | simpleperf/cmd_stat.cpp:133-141 | lookup depends only on the keys of the entries |
| Comments.SameRule | simpleperf/cmd_stat.cpp:197-243 | rule selection depends only on keys, groups, counts and scales |
| Comments.GenerateComments | simpleperf/cmd_stat.cpp:164-168 | each summary gets its rule's comment, and nothing but the comments changes |
| Comments.GenerateCommentsInPlace | simpleperf/cmd_stat.cpp:164-168 | the in-place loop as written, whose later lookups see earlier updates, gives the same list as deriving every comment from the list before the loop |
| Comments.GenerateCommentsIdempotent | simpleperf/cmd_stat.cpp:164-168 | generating comments again changes nothing |
| Report.AutoGenerateKeepsScales | simpleperf/cmd_stat.cpp:155-157 | synthesis keeps every scale at least 1 |
| Report.ShowCounters | simpleperf/cmd_stat.cpp:568-592 | the report lists first one summary per selection, with its key, its wrapped count and its scale, and not generated; then only generated unmodified summaries; apart from the comments it is exactly the aggregated list after `AutoGenerateSummaries`; every scale is at least 1 and every summary shows the readable form of its own count |
| Report.AutoGenerateKeepsReadable | simpleperf/cmd_stat.cpp:155-157 | generated summaries go through the constructor, so they too show the readable form of their count |
| Report.ShowCountersComments | simpleperf/cmd_stat.cpp:590-591 | every comment is derived from the list as it stands after synthesis |
| Report.ShowCountersLoops | simpleperf/cmd_stat.cpp:568-591 | the aggregation, synthesis and comment loops as written compose to the report list |
| StatOptions.Split | simpleperf/cmd_stat.cpp:433 | the pieces contain no comma, and joining them with commas gives the text back |
| StatOptions.AddEventTypes | simpleperf/cmd_stat.cpp:433-438 | `-e` succeeds iff every listed event type is accepted, and then appends them in order |
| StatOptions.ApplyValued | simpleperf/cmd_stat.cpp:411-467 | a valued option succeeds exactly when its value is accepted (`--duration` positive, every `-e` piece and the `--group` added, a valid `-p`/`-t` list, anything for `--cpu` and `-o`); `--duration` sets the duration, `-p`/`-t` add exactly their threads; no valued option touches a flag, and only `--duration` the duration |
| StatOptions.SetFlag | simpleperf/cmd_stat.cpp:409-469 | `-a`, `--csv`, `--no-inherit` and `--verbose` each put exactly their own flag in effect and change nothing else |
| StatOptions.ScanOptions | simpleperf/cmd_stat.cpp:408-474 | on success the consumed arguments are exactly options, each flag alone and each valued option with one value, and the scan stops at the first argument after them that is empty or does not start with '-'; a leading non-option stops it at once; any duration it sets is positive |
| StatOptions.ParseOptions | simpleperf/cmd_stat.cpp:403-503 | succeeds exactly when the scan succeeds, system-wide collection has no threads and runs as root, and a duration comes without a command; on success the options are the scan's, with a duration the workload is exactly `sleep` and the formatted duration, and without one it is exactly the arguments after the consumed options |
| StatOptions.ScannedFromUnique | simpleperf/cmd_stat.cpp:408 | the arguments determine where the options end: only one stopping place meets the scan's description |
| StatOptions.WorkloadAfterOptions | simpleperf/cmd_stat.cpp:488-491 | without a duration, the workload is exactly the arguments from where the options end |
| StatOptions.CommandOnly | simpleperf/cmd_stat.cpp:488-491 | a command given first is taken whole as the workload, with the default options |
| StatOptions.ScanKeepsTarget | simpleperf/cmd_stat.cpp:409-466 | later options never clear `-a` and never drop threads already collected |
| StatOptions.ScanFlags | simpleperf/cmd_stat.cpp:408-474 | after the scan, each of `-a`, `--csv`, `--no-inherit`, `--verbose` is in effect iff it was before or the scan reads it as an option (a value is never read as one) |
| StatOptions.ScanAccepts | simpleperf/cmd_stat.cpp:408-474 | when the arguments up to `n` are well-formed options and every valued one is accepted, the scan succeeds and stops at `n` |
| StatOptions.ScanReadsAccepted | simpleperf/cmd_stat.cpp:408-474 | when the scan succeeds, every valued option it read was accepted |
| StatOptions.ScanThreadsRead | simpleperf/cmd_stat.cpp:454-467 | every `-p`/`-t` option the scan reads has a valid list, and all its threads are collected |
| StatOptions.ScanThreadsOnly | simpleperf/cmd_stat.cpp:454-467 | every collected thread was there before or is named by a `-p`/`-t` option the scan reads |
| StatOptions.ScanDurationsValid | simpleperf/cmd_stat.cpp:418-428 | every `--duration` the scan reads has a value that parses to a positive number |
| StatOptions.ScanDurationSet | simpleperf/cmd_stat.cpp:406-428 | without a `--duration` the duration is unchanged; with one it is positive |
| StatOptions.ScanDurationLast | simpleperf/cmd_stat.cpp:418-428 | the duration is the value of the last `--duration` the scan reads |
| StatOptions.ParsedTarget | simpleperf/cmd_stat.cpp:403-482 | on success each flag is in effect iff it is among the options read, and the threads are exactly those named by the `-p`/`-t` options read |
| StatOptions.ParsedDuration | simpleperf/cmd_stat.cpp:492-501 | on success with a `--duration` read, the duration is the last one's value and the workload is `sleep` with it formatted |
| StatOptions.ParseAccepts | simpleperf/cmd_stat.cpp:403-503 | parsing succeeds when the options are well-formed and accepted, `-a` comes with root and no thread, and `--duration` without a command |
| StatOptions.CsvWithDurationExample | simpleperf/cmd_stat.cpp:416-500 | `--csv --duration 5` is accepted with CSV output and the workload `sleep` 5 |
| StatOptions.SystemWideWithThreadsRejected | simpleperf/cmd_stat.cpp:476-482 | `-a` and a `-p`/`-t` naming threads, both read as options in any order and position, make parsing fail, with exactly this error when the scan succeeds |
| StatOptions.ThreadsBeforeSystemWideExample | simpleperf/cmd_stat.cpp:476-482 | `-p 1 -a` is rejected as system-wide with threads |
| StatOptions.BadDurationRejected | simpleperf/cmd_stat.cpp:418-428 | a `--duration` read as an option anywhere, whose value is missing, does not parse fully or is not positive, makes parsing fail |
| StatOptions.BadDurationFirstRejected | simpleperf/cmd_stat.cpp:418-428 | as the first argument, a bad duration is the error reported, with its text |
| StatOptions.DurationRewritten | simpleperf/cmd_stat.cpp:492-501 | `--duration d` alone yields the workload `sleep d` |
| StatOptions.DurationWithCommandRejected | simpleperf/cmd_stat.cpp:492-497 | a `--duration` read as an option anywhere together with a non-empty workload makes parsing fail, with exactly this error when the scan succeeds and the collection is not system-wide |
| StatOptions.AddDefaults | simpleperf/cmd_stat.cpp:506-516 | the result is exactly the supported defaults, in order, after what was already selected; it fails iff adding some supported default fails |
| StatOptions.AddDefaultMeasuredEventTypes | simpleperf/cmd_stat.cpp:505-522 | on success the result is the supported defaults in list order; it succeeds iff some default is supported and every supported default is added |
| StatOptions.SupportedIn | simpleperf/cmd_stat.cpp:506-511 | the supported defaults, in list order; empty iff no default is supported |
| StatOptions.TwoSupported | simpleperf/cmd_stat.cpp:506-511 | for any list of defaults, when exactly two positions are supported the selection is those two names in list order |
| StatOptions.DefaultsExample | simpleperf/cmd_stat.cpp:44-48 | with only cpu-cycles and task-clock supported, exactly those two are selected, cpu-cycles first |

## Left out

- The run loop is not modelled: signal handling, the wait loop, the clocks, workload creation, counter opening and reading (`Run`). The measured duration is a parameter.
- Report text is not modelled: `Show` (column widths, the `100/scale` percentage, the "(generated)" mark), the verbose dump of raw readings, the header and trailer lines, and the output file.
- Comments are a kind together with an exact real value, not the `printf` text. This leaves out `%lf`/`%.3lf` rounding, the `(ms)` suffix and the CSV separator character.
- Scale and comment arithmetic uses exact reals, not doubles. Rounding, NaN and infinity are not modelled.
- StatOptions.ParseOptions: `strtod` is a collaborator returning a real or failure, so a "nan" or "inf" duration, which passes every check of the source (the `<= 0` test, the end pointer and `ERANGE`), is not represented.
- Comments.GenerateComments: requires a positive duration. The source divides by the measured duration, and a zero duration would give an infinite double.
- StatOptions.Collaborators: whether `AddEventType` and `AddEventGroup` succeed depends only on their arguments. The event selection set they fill is modelled as the list of selections in order.
- `NextArgumentOrError` is not part of this model. A missing option value is modelled as an error.
- `ReportUnknownOption` is not part of this model. An unknown option is modelled as an error.
- `SetEventSelectionFlags` and `CheckPerfEventLimit` are not modelled. They are configuration and I/O.

=== FILE: aggregation.dfy ===
/** The aggregation loop of `StatCommand::ShowCounters`: the readouts of one
    event selection are reduced to one summary with a multiplexing scale. */
module Aggregation {
  import opened UInt64
  import opened Summary
  import opened ReadableCount

  /** One raw counter reading as the kernel reports it. */
  datatype Counter = Counter(value: u64, timeEnabled: u64, timeRunning: u64, id: u64)

  /** A reading together with the thread and cpu it was taken on. */
  datatype CounterInfo = CounterInfo(tid: int, cpu: int, counter: Counter)

  /** One requested event: type name, modifier and the group it is scheduled
      with. */
  datatype EventSelection = EventSelection(typeName: string, modifier: string, groupId: nat)

  /** All readings of one selection. */
  datatype CountersInfo = CountersInfo(selection: EventSelection, counters: seq<CounterInfo>)

  /** The counters that ever ran, in order; a counter with zero running time
      never ran on the event and is left out of every sum. */
  function RanCounters(cs: seq<CounterInfo>): (r: seq<Counter>)
    ensures |r| <= |cs|
    ensures forall k :: 0 <= k < |r| ==> r[k].timeRunning != 0
  {
    if |cs| == 0 then []
    else
      var last := cs[|cs| - 1].counter;
      RanCounters(cs[..|cs| - 1]) + (if last.timeRunning != 0 then [last] else [])
  }

  datatype Field = Value | Enabled | Running

  function Get(c: Counter, f: Field): u64 {
    match f
    case Value => c.value
    case Enabled => c.timeEnabled
    case Running => c.timeRunning
  }

  /** The exact (unbounded) total of one field. */
  function Total(xs: seq<Counter>, f: Field): nat {
    if |xs| == 0 then 0 else Total(xs[..|xs| - 1], f) + Get(xs[|xs| - 1], f)
  }

  /** The `uint64_t` sum of one field over the counters that ran. */
  function WrappedSum(cs: seq<CounterInfo>, f: Field): u64 {
    Total(RanCounters(cs), f) % TWO_64
  }

  /** Extending the readings by one moves the wrapped sum exactly as the
      loop's accumulator moves. */
  lemma SumStep(cs: seq<CounterInfo>, k: nat, f: Field)
    requires k < |cs|
    ensures WrappedSum(cs[..k + 1], f) ==
              if cs[k].counter.timeRunning != 0 then AddWrap(WrappedSum(cs[..k], f), Get(cs[k].counter, f))
              else WrappedSum(cs[..k], f)
  {
    var c := cs[k].counter;
    assert cs[..k + 1][..k] == cs[..k];
    var ran := RanCounters(cs[..k]);
    if c.timeRunning != 0 {
      assert RanCounters(cs[..k + 1]) == ran + [c];
      assert (ran + [c])[..|ran|] == ran;
      assert Total(ran + [c], f) == Total(ran, f) + Get(c, f);
      assert Get(c, f) % TWO_64 == Get(c, f);
      AddWrapOfReduced(Total(ran, f), Get(c, f));
    } else {
      assert RanCounters(cs[..k + 1]) == ran + [];
      assert ran + [] == ran;
    }
  }

  /** The inner loop as written: three `uint64_t` accumulators, each reading
      added only when its running time is nonzero. The sums are the totals
      over the counters that ran, modulo 2^64. */
  method SumCounters(cs: seq<CounterInfo>) returns (valueSum: u64, enabledSum: u64, runningSum: u64)
    ensures valueSum == WrappedSum(cs, Value)
    ensures enabledSum == WrappedSum(cs, Enabled)
    ensures runningSum == WrappedSum(cs, Running)
  {
    valueSum, enabledSum, runningSum := 0, 0, 0;
    var k := 0;
    while k < |cs|
      invariant 0 <= k <= |cs|
      invariant valueSum == WrappedSum(cs[..k], Value)
      invariant enabledSum == WrappedSum(cs[..k], Enabled)
      invariant runningSum == WrappedSum(cs[..k], Running)
    {
      var c := cs[k].counter;
      SumStep(cs, k, Value);
      SumStep(cs, k, Enabled);
      SumStep(cs, k, Running);
      if c.timeRunning != 0 {
        valueSum := AddWrap(valueSum, c.value);
        enabledSum := AddWrap(enabledSum, c.timeEnabled);
        runningSum := AddWrap(runningSum, c.timeRunning);
      }
      k := k + 1;
    }
    assert cs[..|cs|] == cs;
  }

  /** A reading that never ran leaves all three sums as they were, wherever
      it appears. */
  lemma {:induction false} IdleReadingIgnored(cs: seq<CounterInfo>, k: nat, f: Field)
    requires k < |cs| && cs[k].counter.timeRunning == 0
    ensures WrappedSum(cs, f) == WrappedSum(cs[..k] + cs[k + 1..], f)
  {
    assert RanCounters(cs) == RanCounters(cs[..k] + cs[k + 1..]) by {
      RanSplit(cs[..k + 1], cs[k + 1..]);
      RanSplit(cs[..k], cs[k + 1..]);
      assert cs[..k + 1] + cs[k + 1..] == cs;
      assert cs[..k + 1][..k] == cs[..k];
    }
  }

  lemma {:induction false} RanSplit(a: seq<CounterInfo>, b: seq<CounterInfo>)
    ensures RanCounters(a + b) == RanCounters(a) + RanCounters(b)
    decreases |b|
  {
    if |b| == 0 {
      assert a + b == a;
    } else {
      var b' := b[..|b| - 1];
      RanSplit(a, b');
      assert (a + b)[..|a + b| - 1] == a + b';
      assert (a + b)[|a + b| - 1] == b[|b| - 1];
    }
  }

  /** The multiplexing scale: 1 when the event never ran or ran whenever it
      was enabled, otherwise enabled time over running time. */
  function Scale(enabledSum: nat, runningSum: nat): (s: real)
    ensures s >= 1.0
    ensures s == 1.0 <==> (runningSum == 0 || runningSum >= enabledSum)
    ensures runningSum != 0 && s != 1.0 ==> s * (runningSum as real) == enabledSum as real
  {
    if runningSum < enabledSum && runningSum != 0 then
      var s := enabledSum as real / runningSum as real;
      assert s * (runningSum as real) == enabledSum as real;
      s
    else 1.0
  }

  /** The summary `ShowCounters` builds for one selection. */
  function Summarize(info: CountersInfo, csv: bool): (s: CounterSummary)
    ensures s.typeName == info.selection.typeName && s.modifier == info.selection.modifier
    ensures s.groupId == info.selection.groupId && !s.autoGenerated && s.comment == Blank
    ensures s.scale >= 1.0
    ensures s.readableCount == ReadableCountValue(s.typeName, s.count, csv)
  {
    var cs := info.counters;
    MakeSummary(info.selection.typeName, info.selection.modifier, info.selection.groupId,
                WrappedSum(cs, Value), Scale(WrappedSum(cs, Enabled), WrappedSum(cs, Running)),
                false, csv)
  }

  /** One iteration of the outer loop as written: sum the readings, derive
      the scale, construct the summary. */
  method SummarizeSelection(info: CountersInfo, csv: bool) returns (s: CounterSummary)
    ensures s == Summarize(info, csv)
    ensures s.count == WrappedSum(info.counters, Value)
    ensures s.scale == 1.0 <==>
              (WrappedSum(info.counters, Running) == 0 ||
               WrappedSum(info.counters, Running) >= WrappedSum(info.counters, Enabled))
  {
    var valueSum, enabledSum, runningSum := SumCounters(info.counters);
    var scale := 1.0;
    if runningSum < enabledSum && runningSum != 0 {
      scale := enabledSum as real / runningSum as real;
    }
    s := MakeSummary(info.selection.typeName, info.selection.modifier, info.selection.groupId,
                     valueSum, scale, false, csv);
  }

  /** The summaries of all selections, one per selection and in order,
      before any are generated. */
  function SummarizeAll(counters: seq<CountersInfo>, csv: bool): (r: seq<CounterSummary>)
    ensures |r| == |counters|
    ensures forall k :: 0 <= k < |r| ==> r[k] == Summarize(counters[k], csv)
  {
    seq(|counters|, k requires 0 <= k < |counters| => Summarize(counters[k], csv))
  }
}

=== FILE: base.dfy ===
/** Small value types shared by the whole model: optional values, results
    with an error, and the unsigned 64-bit arithmetic of the counters. */
module Results {

  /** A value that may be missing; stands for a nullable pointer. */
  datatype Option<+T> = None | Some(value: T)

  /** The outcome of an operation that can fail with an error value. */
  datatype Result<+T, +E> = Ok(value: T) | Err(error: E)
}

/** Counter values, enabled times and running times are `uint64_t` in the
    program; sums of them wrap around modulo 2^64. */
module UInt64 {

  const TWO_64: nat := 0x1_0000_0000_0000_0000

  type u64 = x: int | 0 <= x < TWO_64

  /** `a + b` on `uint64_t`. */
  function AddWrap(a: u64, b: u64): (r: u64)
    ensures a + b < TWO_64 ==> r == a + b
    ensures a + b >= TWO_64 ==> r == a + b - TWO_64
  {
    (a + b) % TWO_64
  }

  /** Reducing before or after adding gives the same wrapped sum, so a running
      `uint64_t` accumulator holds the exact total modulo 2^64. */
  lemma AddWrapOfReduced(total: nat, x: nat)
    ensures AddWrap((total % TWO_64) as u64, (x % TWO_64) as u64) == (total + x) % TWO_64
  {
    var q1, r1 := total / TWO_64, total % TWO_64;
    var q2, r2 := x / TWO_64, x % TWO_64;
    assert total + x == (q1 + q2) * TWO_64 + (r1 + r2);
    if r1 + r2 >= TWO_64 {
      assert total + x == (q1 + q2 + 1) * TWO_64 + (r1 + r2 - TWO_64);
    }
  }
}

=== FILE: comments.dfy ===
/** Comment derivation (`CounterSummaries::GetCommentForSummary` and
    `GenerateComments`): which derived metric a summary gets, chosen by a
    fixed priority of rules that may cross-reference other summaries. */
module Comments {
  import opened Results
  import opened Summary
  import opened Summaries

  const G: real := 1000000000.0
  const M: real := 1000000.0
  const K: real := 1000.0

  function Factor(u: RateUnit): (f: real)
    ensures f >= 1.0
  {
    match u
    case Giga => G
    case Mega => M
    case Kilo => K
    case Unit => 1.0
  }

  /** Events per second, extrapolated to the whole window: the count divided
      by `duration / scale`. */
  function RateOf(count: nat, scale: real, duration: real): (rate: real)
    requires scale > 0.0 && duration > 0.0
    ensures rate >= 0.0
    ensures rate * duration == (count as real) * scale
  {
    var window := duration / scale;
    assert window * scale == duration;
    var rate := count as real / window;
    assert rate * window == count as real;
    assert rate * duration == rate * window * scale;
    rate
  }

  /** The rate fallback: the largest unit whose strict threshold the rate
      exceeds. The shown value times the unit is the rate; with a unit the
      value exceeds 1, and below Giga it is at most 1000. */
  function RateComment(rate: real): (c: Comment)
    requires rate >= 0.0
    ensures c.Rate? && c.value * Factor(c.unit) == rate
    ensures c.unit == Giga <==> rate > G
    ensures c.unit == Mega <==> M < rate <= G
    ensures c.unit == Kilo <==> K < rate <= M
    ensures c.unit == Unit <==> rate <= K
    ensures c.unit != Unit ==> c.value > 1.0
    ensures c.unit != Giga ==> c.value <= 1000.0
  {
    if rate > G then Rate(rate / G, Giga)
    else if rate > M then Rate(rate / M, Mega)
    else if rate > K then Rate(rate / K, Kilo)
    else Rate(rate, Unit)
  }

  predicate EndsWith(s: string, suffix: string) {
    |suffix| <= |s| && s[|s| - |suffix|..] == suffix
  }

  /** The event a `-misses` event is a fraction of. */
  function ReferenceName(typeName: string): (r: string)
    requires EndsWith(typeName, "-misses")
    ensures typeName == "cache-misses" ==> r == "cache-references"
    ensures typeName == "branch-misses" ==> r == "branch-instructions"
    ensures typeName != "cache-misses" && typeName != "branch-misses" ==>
              r == typeName[..|typeName| - 7] + "s"
  {
    if typeName == "cache-misses" then "cache-references"
    else if typeName == "branch-misses" then "branch-instructions"
    else typeName[..|typeName| - |"-misses"|] + "s"
  }

  /** For any other event `<base>-misses` the reference is `<base>s`. */
  lemma ReferenceNameOfBase(base: string)
    requires base != "cache" && base != "branch"
    ensures EndsWith(base + "-misses", "-misses")
    ensures ReferenceName(base + "-misses") == base + "s"
  {
    var t := base + "-misses";
    assert t[|t| - 7..] == "-misses";
    assert t[..|t| - 7] == base;
  }

  /** The cpu-cycles summary an instructions summary is compared with: the
      first one with the same modifier, if it ran at the same time. */
  function CyclesPartner(ss: seq<CounterSummary>, s: CounterSummary): (r: Option<nat>)
    ensures r.Some? ==> r.value < |ss| && Matches(ss[r.value], "cpu-cycles", s.modifier)
                        && IsMonitoredAtTheSameTime(ss[r.value], s)
    ensures r.Some? ==> r == FindSummary(ss, "cpu-cycles", s.modifier)
    ensures r.None? <==> (FindSummary(ss, "cpu-cycles", s.modifier).None? ||
                          !IsMonitoredAtTheSameTime(ss[FindSummary(ss, "cpu-cycles", s.modifier).value], s))
  {
    match FindSummary(ss, "cpu-cycles", s.modifier)
    case Some(k) => if IsMonitoredAtTheSameTime(ss[k], s) then Some(k) else None
    case None => None
  }

  /** The reference summary of a `-misses` summary: the first one with the
      reference name and the same modifier, if it ran at the same time and
      counted something. */
  function MissReference(ss: seq<CounterSummary>, s: CounterSummary): (r: Option<nat>)
    requires EndsWith(s.typeName, "-misses")
    ensures r.Some? ==> r.value < |ss| && Matches(ss[r.value], ReferenceName(s.typeName), s.modifier)
                        && IsMonitoredAtTheSameTime(ss[r.value], s) && ss[r.value].count != 0
    ensures r.Some? ==> r == FindSummary(ss, ReferenceName(s.typeName), s.modifier)
    ensures r.None? <==>
              (var f := FindSummary(ss, ReferenceName(s.typeName), s.modifier);
               f.None? || !IsMonitoredAtTheSameTime(ss[f.value], s) || ss[f.value].count == 0)
  {
    match FindSummary(ss, ReferenceName(s.typeName), s.modifier)
    case Some(k) =>
      if IsMonitoredAtTheSameTime(ss[k], s) && ss[k].count != 0 then Some(k) else None
    case None => None
  }

  predicate HasCpi(ss: seq<CounterSummary>, s: CounterSummary) {
    s.typeName == "instructions" && s.count != 0 && CyclesPartner(ss, s).Some?
  }

  predicate HasMissRate(ss: seq<CounterSummary>, s: CounterSummary) {
    EndsWith(s.typeName, "-misses") && MissReference(ss, s).Some?
  }

  /** `shown`, in units of `unitFactor` events per second, accounts over
      `duration` seconds for the count extrapolated by `scale`. */
  predicate Extrapolated(shown: real, unitFactor: real, duration: real, count: nat, scale: real) {
    shown * unitFactor * duration == (count as real) * scale
  }

  /** `shown` is `numerator / denominator`. */
  predicate Ratio(shown: real, denominator: nat, numerator: real) {
    shown * (denominator as real) == numerator
  }

  /** Which rule of `GetCommentForSummary` applies. */
  datatype Rule =
    | TaskClockRule
    | CpuClockRule
    | CyclesRule
    | CpiRule(cycles: nat)
    | MissRule(reference: nat)
    | RateRule

  /** The rule chosen for `s`, in priority order: task-clock, cpu-clock,
      cpu-cycles, instructions with a nonzero count and a same-time cycles
      partner of the same modifier, a `-misses` event with a usable
      reference, and otherwise the rate. Each case holds exactly when its
      condition holds and no earlier one does. */
  function SelectRule(ss: seq<CounterSummary>, s: CounterSummary): (r: Rule)
    ensures r.TaskClockRule? <==> s.typeName == "task-clock"
    ensures r.CpuClockRule? <==> s.typeName == "cpu-clock"
    ensures r.CyclesRule? <==> s.typeName == "cpu-cycles"
    ensures r.CpiRule? <==> HasCpi(ss, s)
    ensures r.CpiRule? ==> CyclesPartner(ss, s) == Some(r.cycles) && r.cycles < |ss| && s.count != 0
    ensures r.MissRule? <==> HasMissRate(ss, s)
    ensures r.MissRule? ==> EndsWith(s.typeName, "-misses") && MissReference(ss, s) == Some(r.reference)
                            && r.reference < |ss| && ss[r.reference].count != 0
    ensures r.RateRule? <==> s.typeName != "task-clock" && s.typeName != "cpu-clock" &&
                             s.typeName != "cpu-cycles" && !HasCpi(ss, s) && !HasMissRate(ss, s)
  {
    if s.typeName == "task-clock" then TaskClockRule
    else if s.typeName == "cpu-clock" then CpuClockRule
    else if s.typeName == "cpu-cycles" then CyclesRule
    else if HasCpi(ss, s) then CpiRule(CyclesPartner(ss, s).value)
    else if HasMissRate(ss, s) then MissRule(MissReference(ss, s).value)
    else RateRule
  }

  /** `GetCommentForSummary`: the comment of the selected rule. Every value
      is extrapolated to the whole window by `duration / scale`: used cpus
      and GHz times the duration give the scaled count (in seconds or
      giga-events), cycles per instruction times instructions gives the
      cycles, the miss rate times the references gives 100 times the misses,
      and the rate times its unit and the duration gives the scaled count. */
  function CommentFor(ss: seq<CounterSummary>, s: CounterSummary, duration: real): (c: Comment)
    requires duration > 0.0 && s.scale >= 1.0
    ensures var rule := SelectRule(ss, s);
            && (c.CpusUsed? <==> rule.TaskClockRule?)
            && (c.Blank? <==> rule.CpuClockRule?)
            && (c.Frequency? <==> rule.CyclesRule?)
            && (c.CyclesPerInstruction? <==> rule.CpiRule?)
            && (c.MissRate? <==> rule.MissRule?)
            && (c.Rate? <==> rule.RateRule?)
            && (c.CyclesPerInstruction? ==> Ratio(c.cpi, s.count, ss[rule.cycles].count as real))
            && (c.MissRate? ==> Ratio(c.percent, ss[rule.reference].count, (s.count as real) * 100.0))
    ensures c.CpusUsed? ==> Extrapolated(c.cpus, G, duration, s.count, s.scale)
    ensures c.Frequency? ==> Extrapolated(c.ghz, G, duration, s.count, s.scale)
    ensures c.Rate? ==> Extrapolated(c.value, Factor(c.unit), duration, s.count, s.scale)
  {
    match SelectRule(ss, s)
    case TaskClockRule => CpusUsedComment(s.count, s.scale, duration)
    case CpuClockRule => Blank
    case CyclesRule => FrequencyComment(s.count, s.scale, duration)
    case CpiRule(k) => CpiComment(ss[k].count, s.count)
    case MissRule(k) => MissRateComment(s.count, ss[k].count)
    case RateRule => FallbackComment(s.count, s.scale, duration)
  }

  /** `run_sec / (duration / scale)` with `run_sec = count / 1e9`. */
  function CpusUsedComment(count: nat, scale: real, duration: real): (c: Comment)
    requires scale > 0.0 && duration > 0.0
    ensures c.CpusUsed? && Extrapolated(c.cpus, G, duration, count, scale)
  {
    var runSec := count as real / G;
    var cpus := runSec / (duration / scale);
    var rate := RateOf(count, scale, duration);
    assert cpus == rate / G;
    CpusUsed(cpus)
  }

  /** `count / (duration / scale) / 1e9`. */
  function FrequencyComment(count: nat, scale: real, duration: real): (c: Comment)
    requires scale > 0.0 && duration > 0.0
    ensures c.Frequency? && Extrapolated(c.ghz, G, duration, count, scale)
  {
    var hz := RateOf(count, scale, duration);
    assert hz / G * G == hz;
    Frequency(hz / G)
  }

  /** `cycles / instructions`. */
  function CpiComment(cycles: nat, instructions: nat): (c: Comment)
    requires instructions != 0
    ensures c.CyclesPerInstruction? && Ratio(c.cpi, instructions, cycles as real)
  {
    CyclesPerInstruction(cycles as real / instructions as real)
  }

  /** `misses / references * 100`. */
  function MissRateComment(misses: nat, references: nat): (c: Comment)
    requires references != 0
    ensures c.MissRate? && Ratio(c.percent, references, (misses as real) * 100.0)
  {
    var missRate := misses as real / references as real;
    assert missRate * (references as real) == misses as real;
    MissRate(missRate * 100.0)
  }

  /** The rate, in the largest unit it exceeds. */
  function FallbackComment(count: nat, scale: real, duration: real): (c: Comment)
    requires scale > 0.0 && duration > 0.0
    ensures c.Rate? && Extrapolated(c.value, Factor(c.unit), duration, count, scale)
    ensures c == RateComment(RateOf(count, scale, duration))
  {
    var rate := RateOf(count, scale, duration);
    var c := RateComment(rate);
    assert c.value * Factor(c.unit) * duration == rate * duration;
    c
  }

  /** 50 branch misses against 1000 branch instructions in the same group
      is a 5% miss rate. */
  lemma MissRateExample(refs: CounterSummary, misses: CounterSummary)
    requires refs.typeName == "branch-instructions" && refs.modifier == "" && refs.count == 1000
    requires misses.typeName == "branch-misses" && misses.modifier == "" && misses.count == 50
    requires refs.groupId == misses.groupId && misses.scale == 1.0
    ensures CommentFor([refs, misses], misses, 1.0) == MissRate(5.0)
  {
    BranchMissesUseMissRate(refs, misses);
    assert MissRateComment(50, 1000) == MissRate(5.0);
  }

  lemma BranchMissesUseMissRate(refs: CounterSummary, misses: CounterSummary)
    requires refs.typeName == "branch-instructions" && refs.modifier == "" && refs.count == 1000
    requires misses.typeName == "branch-misses" && misses.modifier == ""
    requires refs.groupId == misses.groupId
    ensures SelectRule([refs, misses], misses) == MissRule(0)
  {
    var ss := [refs, misses];
    assert EndsWith("branch-misses", "-misses") by {
      assert "branch-misses"[13 - 7..] == "-misses";
    }
    assert FindSummary(ss, "branch-instructions", "") == Some(0) by {
      assert Matches(ss[0], "branch-instructions", "");
    }
    assert MissReference(ss, misses) == Some(0);
  }

  /** 2e9 cycles over 1e9 instructions in the same group is 2 cycles per
      instruction. */
  lemma CpiExample(cycles: CounterSummary, insns: CounterSummary)
    requires cycles.typeName == "cpu-cycles" && cycles.modifier == "" && cycles.count == 2000000000
    requires insns.typeName == "instructions" && insns.modifier == "" && insns.count == 1000000000
    requires cycles.groupId == insns.groupId && insns.scale == 1.0
    ensures CommentFor([cycles, insns], insns, 1.0) == CyclesPerInstruction(2.0)
  {
    InstructionsUseCpi(cycles, insns);
    assert CpiComment(2000000000, 1000000000) == CyclesPerInstruction(2.0);
  }

  lemma InstructionsUseCpi(cycles: CounterSummary, insns: CounterSummary)
    requires cycles.typeName == "cpu-cycles" && cycles.modifier == ""
    requires insns.typeName == "instructions" && insns.modifier == "" && insns.count != 0
    requires cycles.groupId == insns.groupId
    ensures SelectRule([cycles, insns], insns) == CpiRule(0)
  {
    var ss := [cycles, insns];
    assert FindSummary(ss, "cpu-cycles", "") == Some(0) by {
      assert Matches(ss[0], "cpu-cycles", "");
    }
  }

  /** 5,000,000 page faults in one second at scale 1 is 5 M/sec. */
  lemma RateExample(pf: CounterSummary)
    requires pf.typeName == "page-faults" && pf.count == 5000000 && pf.scale == 1.0
    ensures CommentFor([pf], pf, 1.0) == Rate(5.0, Mega)
  {
    PageFaultsUseRate(pf);
    FiveMillionPerSecond();
  }

  lemma PageFaultsUseRate(pf: CounterSummary)
    requires pf.typeName == "page-faults"
    ensures SelectRule([pf], pf) == RateRule
  {
    assert !EndsWith("page-faults", "-misses") by {
      assert "page-faults"[11 - 7..] == "-faults";
    }
  }

  lemma FiveMillionPerSecond()
    ensures FallbackComment(5000000, 1.0, 1.0) == Rate(5.0, Mega)
  {
    var rate := RateOf(5000000, 1.0, 1.0);
    assert rate == 5000000.0;
    assert RateComment(rate) == Rate(5.0, Mega);
  }

  /** The list with every comment blanked out: what lookups and comment
      rules depend on. */
  predicate SameExceptComments(a: seq<CounterSummary>, b: seq<CounterSummary>) {
    |a| == |b| && forall k :: 0 <= k < |a| ==> a[k].(comment := Blank) == b[k].(comment := Blank)
  }

  /** Comments never influence a comment: lookups use only type name and
      modifier, and the rules read only counts, groups and scales. */
  lemma CommentIgnoresComments(a: seq<CounterSummary>, b: seq<CounterSummary>,
                               s: CounterSummary, t: CounterSummary, duration: real)
    requires SameExceptComments(a, b) && s.(comment := Blank) == t.(comment := Blank)
    requires duration > 0.0 && s.scale >= 1.0
    ensures CommentFor(a, s, duration) == CommentFor(b, t, duration)
  {
    assert s.(comment := Blank).typeName == s.typeName && t.(comment := Blank).typeName == t.typeName;
    assert SameKey(s, t);
    forall k | 0 <= k < |a|
      ensures SameKey(a[k], b[k])
    {
      assert a[k].(comment := Blank).typeName == a[k].typeName;
      assert b[k].(comment := Blank).typeName == b[k].typeName;
    }
    SameRule(a, b, s, t);
  }

  /** Equal in everything the comment rules read. */
  predicate SameKey(x: CounterSummary, y: CounterSummary) {
    && x.typeName == y.typeName && x.modifier == y.modifier && x.count == y.count
    && x.groupId == y.groupId && x.scale == y.scale
  }

  lemma SameRule(a: seq<CounterSummary>, b: seq<CounterSummary>, s: CounterSummary, t: CounterSummary)
    requires |a| == |b| && SameKey(s, t)
    requires forall k :: 0 <= k < |a| ==> SameKey(a[k], b[k])
    ensures SelectRule(a, s) == SelectRule(b, t)
    ensures var r := SelectRule(a, s);
            (r.CpiRule? ==> a[r.cycles].count == b[r.cycles].count) &&
            (r.MissRule? ==> a[r.reference].count == b[r.reference].count)
  {
    SameLookup(a, b, "cpu-cycles", s.modifier);
    if EndsWith(s.typeName, "-misses") {
      SameLookup(a, b, ReferenceName(s.typeName), s.modifier);
    }
  }

  lemma SameLookup(a: seq<CounterSummary>, b: seq<CounterSummary>, typeName: string, modifier: string)
    requires |a| == |b|
    requires forall k :: 0 <= k < |a| ==> SameKey(a[k], b[k])
    ensures FindSummary(a, typeName, modifier) == FindSummary(b, typeName, modifier)
  {
    var fa, fb := FindSummary(a, typeName, modifier), FindSummary(b, typeName, modifier);
    if fa.Some? {
      assert Matches(b[fa.value], typeName, modifier);
    }
    if fb.Some? {
      assert Matches(a[fb.value], typeName, modifier);
    }
  }

  predicate ScalesAtLeastOne(ss: seq<CounterSummary>) {
    forall k :: 0 <= k < |ss| ==> ss[k].scale >= 1.0
  }

  /** `GenerateComments(duration)`: every summary gets the comment its rule
      derives; nothing else changes. */
  function GenerateComments(ss: seq<CounterSummary>, duration: real): (r: seq<CounterSummary>)
    requires duration > 0.0 && ScalesAtLeastOne(ss)
    ensures SameExceptComments(ss, r)
    ensures forall k :: 0 <= k < |r| ==> r[k].comment == CommentFor(ss, ss[k], duration)
  {
    seq(|ss|, k requires 0 <= k < |ss| => ss[k].(comment := CommentFor(ss, ss[k], duration)))
  }

  /** The loop as written assigns each comment in place while later rules
      read the partly updated list; it ends with the same list as computing
      every comment from the original one. */
  method GenerateCommentsInPlace(ss: seq<CounterSummary>, duration: real) returns (r: seq<CounterSummary>)
    requires duration > 0.0 && ScalesAtLeastOne(ss)
    ensures r == GenerateComments(ss, duration)
  {
    r := ss;
    var i := 0;
    while i < |r|
      invariant |r| == |ss| && i <= |ss|
      invariant SameExceptComments(ss, r)
      invariant forall k :: 0 <= k < i ==> r[k] == GenerateComments(ss, duration)[k]
      invariant forall k :: i <= k < |r| ==> r[k] == ss[k]
    {
      CommentIgnoresComments(r, ss, r[i], ss[i], duration);
      r := r[i := r[i].(comment := CommentFor(r, r[i], duration))];
      i := i + 1;
    }
  }

  /** Generating the comments a second time changes nothing. */
  lemma GenerateCommentsIdempotent(ss: seq<CounterSummary>, duration: real)
    requires duration > 0.0 && ScalesAtLeastOne(ss)
    ensures ScalesAtLeastOne(GenerateComments(ss, duration))
    ensures GenerateComments(GenerateComments(ss, duration), duration) == GenerateComments(ss, duration)
  {
    var r := GenerateComments(ss, duration);
    forall k | 0 <= k < |r|
      ensures r[k].scale >= 1.0
      ensures CommentFor(r, r[k], duration) == r[k].comment
    {
      assert r[k].(comment := Blank).scale == r[k].scale;
      assert ss[k].(comment := Blank).scale == ss[k].scale;
      CommentIgnoresComments(r, ss, r[k], ss[k], duration);
    }
    assert forall k :: 0 <= k < |r| ==> r[k].(comment := CommentFor(r, r[k], duration)) == r[k];
  }
}

=== FILE: counter_summary.dfy ===
/** The `CounterSummary` record of cmd_stat.cpp: one aggregated line of the
    report, keyed by event type name and modifier. */
module Summary {
  import opened UInt64
  import opened ReadableCount

  /** The unit prefix the rate fallback chooses. */
  datatype RateUnit = Giga | Mega | Kilo | Unit

  /** The derived metric of a summary. The printed digits are left out;
      what is kept is which metric was chosen and its exact value.
      `Blank` is the empty string, both before comments are generated and
      as the cpu-clock comment. */
  datatype Comment =
    | Blank
    | CpusUsed(cpus: real)
    | Frequency(ghz: real)
    | CyclesPerInstruction(cpi: real)
    | MissRate(percent: real)
    | Rate(value: real, unit: RateUnit)

  datatype CounterSummary = CounterSummary(
    typeName: string,
    modifier: string,
    groupId: nat,
    count: u64,
    scale: real,
    readableCount: CountText,
    comment: Comment,
    autoGenerated: bool)

  /** The constructor: the readable count is computed from the count, and the
      comment starts out empty. */
  function MakeSummary(typeName: string, modifier: string, groupId: nat, count: u64,
                       scale: real, autoGenerated: bool, csv: bool): (s: CounterSummary)
    ensures s.typeName == typeName && s.modifier == modifier && s.groupId == groupId
    ensures s.count == count && s.scale == scale && s.autoGenerated == autoGenerated
    ensures s.comment == Blank
    ensures s.readableCount == ReadableCountValue(typeName, count, csv)
  {
    CounterSummary(typeName, modifier, groupId, count, scale,
                   ReadableCountValue(typeName, count, csv), Blank, autoGenerated)
  }

  /** The tolerance within which a scale counts as "ran all the time". */
  const SCALE_ERROR_LIMIT: real := 0.00001

  function Abs(x: real): (r: real)
    ensures r >= 0.0 && (r == x || r == -x)
  {
    if x < 0.0 then -x else x
  }

  /** The event ran whenever it was enabled: its scale is within 1e-5 of 1. */
  function IsMonitoredAllTheTime(s: CounterSummary): (r: bool)
    ensures r <==> 1.0 - SCALE_ERROR_LIMIT < s.scale < 1.0 + SCALE_ERROR_LIMIT
  {
    Abs(s.scale - 1.0) < SCALE_ERROR_LIMIT
  }

  /** Two summaries are monitored at the same time when they are in the same
      group, or when both were monitored all the time. */
  function IsMonitoredAtTheSameTime(a: CounterSummary, b: CounterSummary): (r: bool)
    ensures a.groupId == b.groupId ==> r
    ensures a.groupId != b.groupId ==>
              (r <==> && 1.0 - SCALE_ERROR_LIMIT < a.scale < 1.0 + SCALE_ERROR_LIMIT
                      && 1.0 - SCALE_ERROR_LIMIT < b.scale < 1.0 + SCALE_ERROR_LIMIT)
  {
    a.groupId == b.groupId || (IsMonitoredAllTheTime(a) && IsMonitoredAllTheTime(b))
  }

  /** The relation is reflexive and symmetric; across groups it holds exactly
      when both scales lie strictly within 1e-5 of 1. */
  lemma SameTimeProperties(a: CounterSummary, b: CounterSummary)
    ensures IsMonitoredAtTheSameTime(a, a)
    ensures IsMonitoredAtTheSameTime(a, b) <==> IsMonitoredAtTheSameTime(b, a)
    ensures a.groupId == b.groupId ==> IsMonitoredAtTheSameTime(a, b)
    ensures a.groupId != b.groupId ==>
              (IsMonitoredAtTheSameTime(a, b) <==>
               (1.0 - SCALE_ERROR_LIMIT < a.scale < 1.0 + SCALE_ERROR_LIMIT &&
                1.0 - SCALE_ERROR_LIMIT < b.scale < 1.0 + SCALE_ERROR_LIMIT))
  {
  }

  /** The display name: the type name, followed by ':' and the modifier when
      the modifier is not empty. */
  function Name(s: CounterSummary): (r: string)
    ensures s.typeName <= r
    ensures s.modifier == "" ==> |r| == |s.typeName|
    ensures s.modifier != "" ==> |r| == |s.typeName| + 1 + |s.modifier| && r[|s.typeName|] == ':'
    ensures s.modifier != "" ==> r[|s.typeName| + 1..] == s.modifier
  {
    if s.modifier == "" then s.typeName else s.typeName + ":" + s.modifier
  }

  /** Index of the first ':' in `n`, if any. */
  function FirstColon(n: string): (k: nat)
    ensures k <= |n|
    ensures k < |n| ==> n[k] == ':'
    ensures forall q :: 0 <= q < k ==> n[q] != ':'
  {
    if |n| == 0 then 0 else if n[0] == ':' then 0 else 1 + FirstColon(n[1..])
  }

  /** Reads a display name back as (type name, modifier), splitting at the
      first ':'. */
  function SplitName(n: string): (string, string) {
    var k := FirstColon(n);
    if k == |n| then (n, "") else (n[..k], n[k + 1..])
  }

  /** For a type name without ':', the display name determines the summary's
      key: splitting it gives back the type name and the modifier. */
  lemma NameRoundTrip(s: CounterSummary)
    requires forall q :: 0 <= q < |s.typeName| ==> s.typeName[q] != ':'
    ensures SplitName(Name(s)) == (s.typeName, s.modifier)
  {
    var n := Name(s);
    var t := s.typeName;
    if s.modifier == "" {
      FirstColonNone(n);
    } else {
      FirstColonAt(n, |t|);
      assert n[..|t|] == t;
      assert n[|t| + 1..] == s.modifier;
    }
  }

  lemma {:induction false} FirstColonNone(n: string)
    requires forall q :: 0 <= q < |n| ==> n[q] != ':'
    ensures FirstColon(n) == |n|
    decreases |n|
  {
    if |n| > 0 {
      FirstColonNone(n[1..]);
    }
  }

  lemma {:induction false} FirstColonAt(n: string, k: nat)
    requires k < |n| && n[k] == ':'
    requires forall q :: 0 <= q < k ==> n[q] != ':'
    ensures FirstColon(n) == k
    decreases k
  {
    if k > 0 {
      FirstColonAt(n[1..], k - 1);
    }
  }

  /** Hence two summaries whose type names contain no ':' get the same
      display name only when they have the same key. */
  lemma NameInjective(a: CounterSummary, b: CounterSummary)
    requires forall q :: 0 <= q < |a.typeName| ==> a.typeName[q] != ':'
    requires forall q :: 0 <= q < |b.typeName| ==> b.typeName[q] != ':'
    requires Name(a) == Name(b)
    ensures a.typeName == b.typeName && a.modifier == b.modifier
  {
    NameRoundTrip(a);
    NameRoundTrip(b);
  }
}

=== FILE: options.dfy ===
/** Option validation and rewriting of `StatCommand::ParseOptions`, and the
    default event list of `AddDefaultMeasuredEventTypes`. The helpers whose
    bodies are not part of this model are parameters. */
module StatOptions {
  import opened Results

  /** The collaborators `ParseOptions` calls. */
  datatype Collaborators = Collaborators(
    /** `IsRoot()`. */
    isRoot: bool,
    /** Whether `EventSelectionSet::AddEventType(name)` succeeds. */
    addEventType: string -> bool,
    /** Whether `EventSelectionSet::AddEventGroup(names)` succeeds. */
    addEventGroup: seq<string> -> bool,
    /** `GetCpusFromString`. */
    cpusFromString: string -> seq<int>,
    /** `GetValidThreadsFromProcessString`; `None` when it fails. */
    threadsFromProcesses: string -> Option<set<int>>,
    /** `GetValidThreadsFromThreadString`; `None` when it fails. */
    threadsFromThreads: string -> Option<set<int>>,
    /** `strtod` of the whole argument; `None` when characters are left over
        or the value is out of range. */
    parseDouble: string -> Option<real>,
    /** `StringPrintf("%f", d)`. */
    formatDouble: real -> string,
    /** Whether a default event type is known and supported by the kernel. */
    defaultSupported: string -> bool)

  /** One `-e` event or one `--group`, in the order given. */
  datatype Selection = Single(name: string) | Group(names: seq<string>)

  datatype Options = Options(
    systemWide: bool,
    cpus: seq<int>,
    csv: bool,
    duration: real,
    selections: seq<Selection>,
    inherit: bool,
    outputFile: string,
    threads: set<int>,
    verbose: bool)

  const Defaults := Options(false, [], false, 0.0, [], true, "", {}, false)

  datatype ParseError =
    | MissingArgument(option: string)
    | InvalidDuration(text: string)
    | EventRejected(name: string)
    | GroupRejected(names: seq<string>)
    | InvalidThreads(text: string)
    | UnknownOption(option: string)
    | SystemWideWithThreads
    | SystemWideNeedsRoot
    | DurationWithCommand
    | NoDefaultEvents

  /** The scan loop continues while the argument starts with '-'. */
  predicate IsOption(arg: string) {
    |arg| > 0 && arg[0] == '-'
  }

  /** `android::base::Split(text, ",")`: the pieces between commas. */
  function Split(text: string): (pieces: seq<string>)
    ensures |pieces| >= 1
    ensures forall k, q :: 0 <= k < |pieces| && 0 <= q < |pieces[k]| ==> pieces[k][q] != ','
    ensures Join(pieces) == text
  {
    SplitFrom(text, 0, 0)
  }

  function SplitFrom(text: string, start: nat, i: nat): (pieces: seq<string>)
    requires start <= i <= |text|
    requires forall q :: start <= q < i ==> text[q] != ','
    ensures |pieces| >= 1
    ensures forall k, q :: 0 <= k < |pieces| && 0 <= q < |pieces[k]| ==> pieces[k][q] != ','
    ensures Join(pieces) == text[start..]
    decreases |text| - i
  {
    if i == |text| then
      [text[start..]]
    else if text[i] == ',' then
      var rest := SplitFrom(text, i + 1, i + 1);
      JoinCons(text[start..i], rest);
      assert text[start..] == text[start..i] + [','] + text[i + 1..];
      [text[start..i]] + rest
    else
      SplitFrom(text, start, i + 1)
  }

  /** The pieces with ',' between them. */
  function Join(pieces: seq<string>): string
    requires |pieces| >= 1
  {
    if |pieces| == 1 then pieces[0] else pieces[0] + [','] + Join(pieces[1..])
  }

  lemma JoinCons(head: string, rest: seq<string>)
    requires |rest| >= 1
    ensures Join([head] + rest) == head + [','] + Join(rest)
  {
    assert ([head] + rest)[1..] == rest;
  }

  /** Adds each piece as an event type, stopping at the first rejected one. */
  function AddEventTypes(env: Collaborators, names: seq<string>, acc: seq<Selection>): (r: Result<seq<Selection>, ParseError>)
    ensures r.Ok? ==> r.value == acc + seq(|names|, k requires 0 <= k < |names| => Single(names[k]))
    ensures r.Ok? <==> forall k :: 0 <= k < |names| ==> env.addEventType(names[k])
    decreases |names|
  {
    if |names| == 0 then Ok(acc)
    else if !env.addEventType(names[0]) then Err(EventRejected(names[0]))
    else
      var r := AddEventTypes(env, names[1..], acc + [Single(names[0])]);
      assert forall k :: 1 <= k < |names| ==> names[1..][k - 1] == names[k];
      r
  }

  /** The options that stand alone. */
  predicate IsFlag(a: string) {
    a in ["-a", "--csv", "--no-inherit", "--verbose"]
  }

  /** The options that take the next argument as their value. */
  predicate IsValued(a: string) {
    a in ["--cpu", "--duration", "-e", "--group", "-o", "-p", "-t"]
  }

  /** The arguments from `i` up to `next` are options, each flag alone and
      each valued option with the one argument after it, and `next` is the
      end or an argument that does not start with '-': the options end
      exactly at `next`. */
  predicate ScannedFrom(args: seq<string>, i: nat, next: nat)
    decreases |args| - i
  {
    if i == next then i == |args| || (i < |args| && !IsOption(args[i]))
    else
      && i < next && i < |args| && IsOption(args[i])
      && ((IsFlag(args[i]) && ScannedFrom(args, i + 1, next)) ||
          (IsValued(args[i]) && i + 1 < |args| && ScannedFrom(args, i + 2, next)))
  }

  /** The end of the options is determined by the arguments: there is only
      one place where they can stop. */
  lemma {:induction false} ScannedFromUnique(args: seq<string>, i: nat, a: nat, b: nat)
    requires ScannedFrom(args, i, a) && ScannedFrom(args, i, b)
    ensures a == b
    decreases |args| - i
  {
    if i != a && i != b {
      if IsFlag(args[i]) {
        ScannedFromUnique(args, i + 1, a, b);
      } else {
        ScannedFromUnique(args, i + 2, a, b);
      }
    }
  }

  /** Position `p` holds one of the options the scan from `i` reads: the
      option at `i` itself, or one reached by stepping over a flag, or over
      a valued option together with its value. A value is never read as an
      option. */
  predicate OptionAt(args: seq<string>, i: nat, p: nat)
    decreases |args| - i
  {
    && i < |args| && IsOption(args[i])
    && (|| p == i
        || (IsFlag(args[i]) && OptionAt(args, i + 1, p))
        || (IsValued(args[i]) && i + 1 < |args| && OptionAt(args, i + 2, p)))
  }

  lemma {:induction false} OptionAtBounds(args: seq<string>, i: nat, p: nat)
    requires OptionAt(args, i, p)
    ensures i <= p < |args|
    decreases |args| - i
  {
    if p != i {
      if IsFlag(args[i]) && OptionAt(args, i + 1, p) {
        OptionAtBounds(args, i + 1, p);
      } else {
        OptionAtBounds(args, i + 2, p);
      }
    }
  }

  /** The scan from `i` reads the option `name` somewhere. */
  predicate Consumed(args: seq<string>, i: nat, name: string) {
    exists p :: i <= p < |args| && OptionAt(args, i, p) && args[p] == name
  }

  /** The argument after the option at `i` and its value, if it has one. */
  function StepOver(args: seq<string>, i: nat): nat
    requires i < |args|
  {
    if IsFlag(args[i]) then i + 1 else i + 2
  }

  /** The options read from `i` are the one at `i` and those read after
      it. */
  lemma OptionAtStep(args: seq<string>, i: nat, p: nat)
    requires i < |args| && IsOption(args[i])
    requires IsFlag(args[i]) || (IsValued(args[i]) && i + 1 < |args|)
    ensures OptionAt(args, i, p) <==> p == i || OptionAt(args, StepOver(args, i), p)
  {
  }

  lemma ConsumedStep(args: seq<string>, i: nat, name: string)
    requires i < |args| && IsOption(args[i])
    requires IsFlag(args[i]) || (IsValued(args[i]) && i + 1 < |args|)
    ensures Consumed(args, i, name) <==> args[i] == name || Consumed(args, StepOver(args, i), name)
  {
    var j := StepOver(args, i);
    if Consumed(args, i, name) && args[i] != name {
      var p :| i <= p < |args| && OptionAt(args, i, p) && args[p] == name;
      OptionAtStep(args, i, p);
      OptionAtBounds(args, j, p);
    }
    if args[i] == name {
      assert OptionAt(args, i, i);
    }
    if Consumed(args, j, name) {
      var p :| j <= p < |args| && OptionAt(args, j, p) && args[p] == name;
      OptionAtStep(args, i, p);
    }
  }

  /** The position and state the option scan reached. */
  datatype Scan = Scan(options: Options, next: nat)

  /** The option loop from argument `i` on. It stops at the first argument
      that does not start with '-' (or at the end); an option that needs a
      value fails when there is none. */
  function ScanOptions(env: Collaborators, args: seq<string>, i: nat, o: Options): (r: Result<Scan, ParseError>)
    requires i <= |args| && o.duration >= 0.0
    ensures r.Ok? ==> i <= r.value.next <= |args|
    ensures r.Ok? ==> r.value.next == |args| || !IsOption(args[r.value.next])
    ensures r.Ok? ==> ScannedFrom(args, i, r.value.next)
    ensures i < |args| && !IsOption(args[i]) ==> r == Ok(Scan(o, i))
    ensures r.Ok? ==> r.value.options.duration >= 0.0
    ensures r.Ok? && r.value.options.duration != o.duration ==> r.value.options.duration > 0.0
    decreases |args| - i
  {
    if i == |args| || !IsOption(args[i]) then Ok(Scan(o, i))
    else
      var a := args[i];
      if IsFlag(a) then ScanOptions(env, args, i + 1, SetFlag(o, a))
      else if IsValued(a) then
        if i + 1 == |args| then Err(MissingArgument(a))
        else
          var v := args[i + 1];
          match ApplyValued(env, a, v, o)
          case Err(e) => Err(e)
          case Ok(o') => ScanOptions(env, args, i + 2, o')
      else Err(UnknownOption(a))
  }

  /** Whether the flag `name` is in effect in `o`; `--no-inherit` is in
      effect when inheritance is off. */
  predicate FlagSet(o: Options, name: string) {
    if name == "-a" then o.systemWide
    else if name == "--csv" then o.csv
    else if name == "--no-inherit" then !o.inherit
    else o.verbose
  }

  /** One option that stands alone: it puts its flag in effect and changes
      nothing else. */
  function SetFlag(o: Options, a: string): (r: Options)
    requires IsFlag(a)
    ensures forall n :: IsFlag(n) ==> (FlagSet(r, n) <==> FlagSet(o, n) || n == a)
    ensures r == o.(systemWide := r.systemWide, csv := r.csv, inherit := r.inherit, verbose := r.verbose)
  {
    if a == "-a" then o.(systemWide := true)
    else if a == "--csv" then o.(csv := true)
    else if a == "--no-inherit" then o.(inherit := false)
    else o.(verbose := true)
  }

  /** The thread options. */
  predicate IsThreadOption(a: string) {
    a == "-p" || a == "-t"
  }

  /** The threads a `-p` or `-t` value names; `None` when it is invalid. */
  function ThreadsGiven(env: Collaborators, a: string, v: string): Option<set<int>> {
    if a == "-p" then env.threadsFromProcesses(v) else env.threadsFromThreads(v)
  }

  /** Whether the valued option `a` accepts the value `v`: a duration must
      parse to a positive number, every `-e` piece and every `--group` must be
      added, and a thread list must be valid; `--cpu` and `-o` take any
      value. */
  predicate Accepted(env: Collaborators, a: string, v: string) {
    if a == "--duration" then env.parseDouble(v).Some? && env.parseDouble(v).value > 0.0
    else if a == "-e" then forall k :: 0 <= k < |Split(v)| ==> env.addEventType(Split(v)[k])
    else if a == "--group" then env.addEventGroup(Split(v))
    else if IsThreadOption(a) then ThreadsGiven(env, a, v).Some?
    else true
  }

  /** One option that takes the value `v`. */
  function ApplyValued(env: Collaborators, a: string, v: string, o: Options): (r: Result<Options, ParseError>)
    requires o.duration >= 0.0
    ensures r.Ok? ==> r.value.duration >= 0.0
    ensures r.Ok? && r.value.duration != o.duration ==> r.value.duration > 0.0
    ensures a == "--duration" ==>
              (r.Ok? <==> (env.parseDouble(v).Some? && env.parseDouble(v).value > 0.0))
    ensures a == "--duration" && r.Ok? ==> r.value.duration == env.parseDouble(v).value
    ensures a != "--duration" && r.Ok? ==> r.value.duration == o.duration
    ensures r.Ok? ==> r.value.systemWide == o.systemWide && o.threads <= r.value.threads
    ensures r.Ok? ==> r.value.csv == o.csv && r.value.inherit == o.inherit && r.value.verbose == o.verbose
    ensures IsThreadOption(a) ==> (r.Ok? <==> ThreadsGiven(env, a, v).Some?)
    ensures IsThreadOption(a) && r.Ok? ==> r.value.threads == o.threads + ThreadsGiven(env, a, v).value
    ensures !IsThreadOption(a) && r.Ok? ==> r.value.threads == o.threads
    ensures IsValued(a) ==> (r.Ok? <==> Accepted(env, a, v))
  {
    if a == "--cpu" then Ok(o.(cpus := env.cpusFromString(v)))
    else if a == "--duration" then
      match env.parseDouble(v)
      case Some(d) => if d <= 0.0 then Err(InvalidDuration(v)) else Ok(o.(duration := d))
      case None => Err(InvalidDuration(v))
    else if a == "-e" then
      match AddEventTypes(env, Split(v), o.selections)
      case Ok(sel) => Ok(o.(selections := sel))
      case Err(e) => Err(e)
    else if a == "--group" then
      if env.addEventGroup(Split(v)) then Ok(o.(selections := o.selections + [Group(Split(v))]))
      else Err(GroupRejected(Split(v)))
    else if a == "-o" then Ok(o.(outputFile := v))
    else if a == "-p" then
      match env.threadsFromProcesses(v)
      case Some(t) => Ok(o.(threads := o.threads + t))
      case None => Err(InvalidThreads(v))
    else if a == "-t" then
      match env.threadsFromThreads(v)
      case Some(t) => Ok(o.(threads := o.threads + t))
      case None => Err(InvalidThreads(v))
    else Err(UnknownOption(a))
  }

  /** `ParseOptions`: scan the options, reject system-wide collection
      together with explicit threads or without root, and take the remaining
      arguments as the workload; a duration is only allowed without a
      workload and is rewritten into `sleep <duration>`. On success the
      target is consistent, and the workload is either `sleep` with the
      formatted duration or the arguments from the first one that is not an
      option, where the options scanned end. */
  function ParseOptions(env: Collaborators, args: seq<string>): (r: Result<(Options, seq<string>), ParseError>)
    ensures r.Ok? ==> !(r.value.0.systemWide && r.value.0.threads != {})
    ensures r.Ok? && r.value.0.systemWide ==> env.isRoot
    ensures r.Ok? ==> r.value.0.duration >= 0.0
    ensures r.Ok? && r.value.0.duration > 0.0 ==>
              r.value.1 == ["sleep", env.formatDouble(r.value.0.duration)]
    ensures r.Ok? && r.value.0.duration == 0.0 ==>
              && |r.value.1| <= |args|
              && r.value.1 == args[|args| - |r.value.1|..]
              && ScannedFrom(args, 0, |args| - |r.value.1|)
    ensures r.Ok? ==> ScanOptions(env, args, 0, Defaults).Ok? && r.value.0 == ScanOptions(env, args, 0, Defaults).value.options
    ensures r.Ok? <==>
              && ScanOptions(env, args, 0, Defaults).Ok?
              && var scan := ScanOptions(env, args, 0, Defaults).value;
                 && !(scan.options.systemWide && scan.options.threads != {})
                 && (scan.options.systemWide ==> env.isRoot)
                 && (scan.options.duration != 0.0 ==> scan.next == |args|)
  {
    match ScanOptions(env, args, 0, Defaults)
    case Err(e) => Err(e)
    case Ok(Scan(o, next)) =>
      if o.systemWide && o.threads != {} then Err(SystemWideWithThreads)
      else if o.systemWide && !env.isRoot then Err(SystemWideNeedsRoot)
      else
        var workload := args[next..];
        if o.duration != 0.0 then
          if |workload| != 0 then Err(DurationWithCommand)
          else Ok((o, ["sleep", env.formatDouble(o.duration)]))
        else
          Ok((o, workload))
  }

  /** Without a duration, the workload is exactly the arguments from where
      the options end. */
  lemma WorkloadAfterOptions(env: Collaborators, args: seq<string>, j: nat)
    requires ScannedFrom(args, 0, j)
    requires ParseOptions(env, args).Ok? && ParseOptions(env, args).value.0.duration == 0.0
    ensures j <= |args| && ParseOptions(env, args).value.1 == args[j..]
  {
    var w := ParseOptions(env, args).value.1;
    ScannedFromUnique(args, 0, j, |args| - |w|);
  }

  /** A workload given first is taken whole, with the default options. */
  lemma CommandOnly(env: Collaborators, args: seq<string>)
    requires |args| > 0 && !IsOption(args[0])
    ensures ParseOptions(env, args) == Ok((Defaults, args))
  {
    assert args[0..] == args;
  }

  /** `-a` together with a `-p`/`-t` option naming threads is rejected,
      wherever the two stand among the options: with that error when the
      scan itself succeeds. */
  lemma SystemWideWithThreadsRejected(env: Collaborators, args: seq<string>, p: nat, q: nat)
    requires p < |args| && OptionAt(args, 0, p) && args[p] == "-a"
    requires q + 1 < |args| && OptionAt(args, 0, q) && IsThreadOption(args[q])
    requires ThreadsGiven(env, args[q], args[q + 1]).Some? && ThreadsGiven(env, args[q], args[q + 1]).value != {}
    ensures ParseOptions(env, args).Err?
    ensures ScanOptions(env, args, 0, Defaults).Ok? ==> ParseOptions(env, args) == Err(SystemWideWithThreads)
  {
    if ScanOptions(env, args, 0, Defaults).Ok? {
      ScanFlags(env, args, 0, Defaults, "-a");
      ScanThreadsRead(env, args, 0, Defaults);
    }
  }

  /** `-p 1 -a`: threads given before `-a` are rejected just the same. */
  lemma ThreadsBeforeSystemWideExample(env: Collaborators)
    requires env.threadsFromProcesses("1") == Some({1})
    ensures ParseOptions(env, ["-p", "1", "-a"]) == Err(SystemWideWithThreads)
  {
    var args := ["-p", "1", "-a"];
    assert IsValued(args[0]) && IsFlag(args[2]);
    assert OptionAt(args, 0, 2) && OptionAt(args, 0, 0);
    assert ApplyValued(env, "-p", "1", Defaults).Ok?;
    SystemWideWithThreadsRejected(env, args, 2, 0);
  }

  /** The scan never clears `-a` or removes threads once set. */
  lemma {:induction false} ScanKeepsTarget(env: Collaborators, args: seq<string>, i: nat, o: Options)
    requires i <= |args| && o.duration >= 0.0
    requires ScanOptions(env, args, i, o).Ok?
    ensures o.systemWide ==> ScanOptions(env, args, i, o).value.options.systemWide
    ensures o.threads <= ScanOptions(env, args, i, o).value.options.threads
    decreases |args| - i
  {
    if i < |args| && IsOption(args[i]) {
      var a := args[i];
      if IsFlag(a) {
        var o' := SetFlag(o, a);
        assert ScanOptions(env, args, i, o) == ScanOptions(env, args, i + 1, o');
        ScanKeepsTarget(env, args, i + 1, o');
      } else {
        var o' := ApplyValued(env, a, args[i + 1], o).value;
        assert ScanOptions(env, args, i, o) == ScanOptions(env, args, i + 2, o');
        ScanKeepsTarget(env, args, i + 2, o');
      }
    }
  }

  /** A flag is in effect after the scan exactly when it was before or the
      scan reads it as an option. */
  lemma {:induction false} ScanFlags(env: Collaborators, args: seq<string>, i: nat, o: Options, name: string)
    requires i <= |args| && o.duration >= 0.0 && IsFlag(name)
    requires ScanOptions(env, args, i, o).Ok?
    ensures FlagSet(ScanOptions(env, args, i, o).value.options, name) <==> FlagSet(o, name) || Consumed(args, i, name)
    decreases |args| - i
  {
    if i < |args| && IsOption(args[i]) {
      var a := args[i];
      ConsumedStep(args, i, name);
      if IsFlag(a) {
        var o' := SetFlag(o, a);
        assert ScanOptions(env, args, i, o) == ScanOptions(env, args, i + 1, o');
        ScanFlags(env, args, i + 1, o', name);
      } else {
        var o' := ApplyValued(env, a, args[i + 1], o).value;
        assert ScanOptions(env, args, i, o) == ScanOptions(env, args, i + 2, o');
        assert FlagSet(o', name) == FlagSet(o, name);
        ScanFlags(env, args, i + 2, o', name);
      }
    } else {
      assert !Consumed(args, i, name);
    }
  }

  /** Every valued option the scan from `i` reads has a value it accepts. */
  predicate AllAccepted(env: Collaborators, args: seq<string>, i: nat) {
    forall p :: i <= p && p + 1 < |args| && OptionAt(args, i, p) && IsValued(args[p]) ==> Accepted(env, args[p], args[p + 1])
  }

  /** The scan succeeds, ending at `n`, when the arguments up to `n` are
      well-formed options and each valued one is accepted. */
  lemma {:induction false} ScanAccepts(env: Collaborators, args: seq<string>, i: nat, o: Options, n: nat)
    requires i <= |args| && o.duration >= 0.0
    requires ScannedFrom(args, i, n) && AllAccepted(env, args, i)
    ensures ScanOptions(env, args, i, o).Ok? && ScanOptions(env, args, i, o).value.next == n
    decreases |args| - i
  {
    if i != n {
      var a := args[i];
      var j := StepOver(args, i);
      forall p | j <= p && p + 1 < |args| && OptionAt(args, j, p) && IsValued(args[p])
        ensures Accepted(env, args[p], args[p + 1])
      {
        OptionAtStep(args, i, p);
      }
      if IsFlag(a) {
        var o' := SetFlag(o, a);
        assert ScanOptions(env, args, i, o) == ScanOptions(env, args, j, o');
        ScanAccepts(env, args, j, o', n);
      } else {
        assert OptionAt(args, i, i);
        var o' := ApplyValued(env, a, args[i + 1], o).value;
        assert ScanOptions(env, args, i, o) == ScanOptions(env, args, j, o');
        ScanAccepts(env, args, j, o', n);
      }
    }
  }

  /** When the scan succeeds, every valued option it reads was accepted. */
  lemma {:induction false} ScanReadsAccepted(env: Collaborators, args: seq<string>, i: nat, o: Options)
    requires i <= |args| && o.duration >= 0.0
    requires ScanOptions(env, args, i, o).Ok?
    ensures AllAccepted(env, args, i)
    decreases |args| - i
  {
    if i < |args| && IsOption(args[i]) {
      var a := args[i];
      var j := StepOver(args, i);
      var o' := if IsFlag(a) then SetFlag(o, a) else ApplyValued(env, a, args[i + 1], o).value;
      assert ScanOptions(env, args, i, o) == ScanOptions(env, args, j, o');
      ScanReadsAccepted(env, args, j, o');
      forall p | i <= p && p + 1 < |args| && OptionAt(args, i, p) && IsValued(args[p])
        ensures Accepted(env, args[p], args[p + 1])
      {
        OptionAtStep(args, i, p);
        if p != i {
          OptionAtBounds(args, j, p);
        }
      }
    }
  }

  /** `--csv --duration 5` is accepted as `sleep 5`. */
  lemma CsvWithDurationExample(env: Collaborators)
    requires env.parseDouble("5") == Some(5.0)
    ensures ParseOptions(env, ["--csv", "--duration", "5"]) ==
              Ok((Defaults.(csv := true, duration := 5.0), ["sleep", env.formatDouble(5.0)]))
  {
    var args := ["--csv", "--duration", "5"];
    var o1 := Defaults.(csv := true);
    var o2 := o1.(duration := 5.0);
    assert IsFlag(args[0]) && IsValued(args[1]);
    assert ScanOptions(env, args, 0, Defaults) == ScanOptions(env, args, 1, o1);
    assert ApplyValued(env, "--duration", "5", o1) == Ok(o2);
    assert ScanOptions(env, args, 1, o1) == ScanOptions(env, args, 3, o2);
  }

  /** Some `-p`/`-t` option the scan from `i` reads names thread `x`. */
  predicate ThreadNamed(env: Collaborators, args: seq<string>, i: nat, x: int) {
    exists p :: i <= p && p + 1 < |args| && OptionAt(args, i, p) && IsThreadOption(args[p])
                && ThreadsGiven(env, args[p], args[p + 1]).Some? && x in ThreadsGiven(env, args[p], args[p + 1]).value
  }

  /** Every `-p`/`-t` option the scan reads names valid threads, and they
      are all collected. */
  lemma {:induction false} ScanThreadsRead(env: Collaborators, args: seq<string>, i: nat, o: Options)
    requires i <= |args| && o.duration >= 0.0
    requires ScanOptions(env, args, i, o).Ok?
    ensures forall p :: i <= p < |args| && OptionAt(args, i, p) && IsThreadOption(args[p]) ==>
              && p + 1 < |args| && ThreadsGiven(env, args[p], args[p + 1]).Some?
              && ThreadsGiven(env, args[p], args[p + 1]).value <= ScanOptions(env, args, i, o).value.options.threads
    decreases |args| - i
  {
    var t := ScanOptions(env, args, i, o).value.options.threads;
    if i < |args| && IsOption(args[i]) {
      var a := args[i];
      var j := StepOver(args, i);
      var o' := if IsFlag(a) then SetFlag(o, a) else ApplyValued(env, a, args[i + 1], o).value;
      assert ScanOptions(env, args, i, o) == ScanOptions(env, args, j, o');
      ScanThreadsRead(env, args, j, o');
      ScanKeepsTarget(env, args, j, o');
      forall p | i <= p < |args| && OptionAt(args, i, p) && IsThreadOption(args[p])
        ensures p + 1 < |args| && ThreadsGiven(env, args[p], args[p + 1]).Some?
        ensures ThreadsGiven(env, args[p], args[p + 1]).value <= t
      {
        OptionAtStep(args, i, p);
        if p != i {
          OptionAtBounds(args, j, p);
        }
      }
    }
  }

  lemma ThreadNamedStep(env: Collaborators, args: seq<string>, i: nat, x: int)
    requires i < |args| && IsOption(args[i])
    requires IsFlag(args[i]) || (IsValued(args[i]) && i + 1 < |args|)
    ensures ThreadNamed(env, args, i, x) <==>
              || (&& IsThreadOption(args[i]) && ThreadsGiven(env, args[i], args[i + 1]).Some?
                  && x in ThreadsGiven(env, args[i], args[i + 1]).value)
              || ThreadNamed(env, args, StepOver(args, i), x)
  {
    var j := StepOver(args, i);
    if ThreadNamed(env, args, i, x) {
      var p :| i <= p && p + 1 < |args| && OptionAt(args, i, p) && IsThreadOption(args[p])
               && ThreadsGiven(env, args[p], args[p + 1]).Some? && x in ThreadsGiven(env, args[p], args[p + 1]).value;
      OptionAtStep(args, i, p);
      if p != i {
        OptionAtBounds(args, j, p);
      }
    }
    if IsThreadOption(args[i]) && ThreadsGiven(env, args[i], args[i + 1]).Some?
       && x in ThreadsGiven(env, args[i], args[i + 1]).value {
      assert OptionAt(args, i, i);
    }
    if ThreadNamed(env, args, j, x) {
      var p :| j <= p && p + 1 < |args| && OptionAt(args, j, p) && IsThreadOption(args[p])
               && ThreadsGiven(env, args[p], args[p + 1]).Some? && x in ThreadsGiven(env, args[p], args[p + 1]).value;
      OptionAtStep(args, i, p);
    }
  }

  /** The scan collects no thread that was not there before or named by a
      `-p`/`-t` option it reads. */
  lemma {:induction false} ScanThreadsOnly(env: Collaborators, args: seq<string>, i: nat, o: Options)
    requires i <= |args| && o.duration >= 0.0
    requires ScanOptions(env, args, i, o).Ok?
    ensures forall x :: x in ScanOptions(env, args, i, o).value.options.threads ==>
              x in o.threads || ThreadNamed(env, args, i, x)
    decreases |args| - i
  {
    if i < |args| && IsOption(args[i]) {
      var a := args[i];
      var j := StepOver(args, i);
      var o' := if IsFlag(a) then SetFlag(o, a) else ApplyValued(env, a, args[i + 1], o).value;
      assert ScanOptions(env, args, i, o) == ScanOptions(env, args, j, o');
      ScanThreadsOnly(env, args, j, o');
      forall x | x in ScanOptions(env, args, j, o').value.options.threads
        ensures x in o.threads || ThreadNamed(env, args, i, x)
      {
        ThreadNamedStep(env, args, i, x);
      }
    }
  }

  /** On success, a flag is in effect exactly when it is among the options
      read, and the threads are exactly those the `-p`/`-t` options read
      name. */
  lemma ParsedTarget(env: Collaborators, args: seq<string>)
    requires ParseOptions(env, args).Ok?
    ensures forall n :: IsFlag(n) ==> (FlagSet(ParseOptions(env, args).value.0, n) <==> Consumed(args, 0, n))
    ensures forall x :: x in ParseOptions(env, args).value.0.threads <==> ThreadNamed(env, args, 0, x)
  {
    var o := ParseOptions(env, args).value.0;
    forall n | IsFlag(n)
      ensures FlagSet(o, n) <==> Consumed(args, 0, n)
    {
      ScanFlags(env, args, 0, Defaults, n);
    }
    ScanThreadsRead(env, args, 0, Defaults);
    ScanThreadsOnly(env, args, 0, Defaults);
    forall x | ThreadNamed(env, args, 0, x)
      ensures x in o.threads
    {
      var p :| 0 <= p && p + 1 < |args| && OptionAt(args, 0, p) && IsThreadOption(args[p])
               && ThreadsGiven(env, args[p], args[p + 1]).Some? && x in ThreadsGiven(env, args[p], args[p + 1]).value;
    }
  }

  /** Parsing succeeds when the options are well-formed and each valued one
      is accepted, `-a` comes with no thread and with root, and a
      `--duration` comes without a command. */
  lemma ParseAccepts(env: Collaborators, args: seq<string>, n: nat)
    requires ScannedFrom(args, 0, n) && AllAccepted(env, args, 0)
    requires Consumed(args, 0, "-a") ==> env.isRoot && forall x :: !ThreadNamed(env, args, 0, x)
    requires Consumed(args, 0, "--duration") ==> n == |args|
    ensures ParseOptions(env, args).Ok?
  {
    ScanAccepts(env, args, 0, Defaults, n);
    ScanFlags(env, args, 0, Defaults, "-a");
    ScanThreadsOnly(env, args, 0, Defaults);
    ScanDurationSet(env, args, 0, Defaults);
    var o := ScanOptions(env, args, 0, Defaults).value.options;
    if o.systemWide {
      assert FlagSet(o, "-a");
      assert o.threads == {} by {
        forall x | x in o.threads
          ensures false
        {
        }
      }
    }
  }

  /** `p` holds the last `--duration` option the scan from `i` reads. */
  predicate LastDurationAt(args: seq<string>, i: nat, p: nat) {
    && i <= p < |args| && OptionAt(args, i, p) && args[p] == "--duration"
    && forall q :: p < q < |args| && OptionAt(args, i, q) ==> args[q] != "--duration"
  }

  /** Every `--duration` the scan reads has a value that parses to a
      positive number. */
  lemma {:induction false} ScanDurationsValid(env: Collaborators, args: seq<string>, i: nat, o: Options)
    requires i <= |args| && o.duration >= 0.0
    requires ScanOptions(env, args, i, o).Ok?
    ensures forall p :: i <= p < |args| && OptionAt(args, i, p) && args[p] == "--duration" ==>
              && p + 1 < |args| && env.parseDouble(args[p + 1]).Some?
              && env.parseDouble(args[p + 1]).value > 0.0
    decreases |args| - i
  {
    if i < |args| && IsOption(args[i]) {
      var a := args[i];
      var j := StepOver(args, i);
      var o' := if IsFlag(a) then SetFlag(o, a) else ApplyValued(env, a, args[i + 1], o).value;
      assert ScanOptions(env, args, i, o) == ScanOptions(env, args, j, o');
      ScanDurationsValid(env, args, j, o');
      forall p | i <= p < |args| && OptionAt(args, i, p) && args[p] == "--duration"
        ensures p + 1 < |args| && env.parseDouble(args[p + 1]).Some? && env.parseDouble(args[p + 1]).value > 0.0
      {
        OptionAtStep(args, i, p);
        if p != i {
          OptionAtBounds(args, j, p);
        }
      }
    }
  }

  /** The duration after the scan is the one it started with when it
      reads no `--duration`, and positive when it reads one. */
  lemma {:induction false} ScanDurationSet(env: Collaborators, args: seq<string>, i: nat, o: Options)
    requires i <= |args| && o.duration >= 0.0
    requires ScanOptions(env, args, i, o).Ok?
    ensures !Consumed(args, i, "--duration") ==> ScanOptions(env, args, i, o).value.options.duration == o.duration
    ensures Consumed(args, i, "--duration") ==> ScanOptions(env, args, i, o).value.options.duration > 0.0
    decreases |args| - i
  {
    if i < |args| && IsOption(args[i]) {
      var a := args[i];
      var j := StepOver(args, i);
      var o' := if IsFlag(a) then SetFlag(o, a) else ApplyValued(env, a, args[i + 1], o).value;
      assert ScanOptions(env, args, i, o) == ScanOptions(env, args, j, o');
      ScanDurationSet(env, args, j, o');
      ConsumedStep(args, i, "--duration");
    } else {
      assert !Consumed(args, i, "--duration");
    }
  }

  /** The last `--duration` read from `i` is the option at `i` itself when
      none is read after it, and otherwise the last one read from the next
      option on. */
  lemma LastDurationStep(args: seq<string>, i: nat, p: nat)
    requires i < |args| && IsOption(args[i])
    requires IsFlag(args[i]) || (IsValued(args[i]) && i + 1 < |args|)
    requires LastDurationAt(args, i, p)
    ensures p == i ==> !Consumed(args, StepOver(args, i), "--duration")
    ensures p != i ==> LastDurationAt(args, StepOver(args, i), p)
  {
    var j := StepOver(args, i);
    OptionAtStep(args, i, p);
    if p == i {
      forall q | j <= q < |args| && OptionAt(args, j, q)
        ensures args[q] != "--duration"
      {
        OptionAtStep(args, i, q);
      }
    } else {
      OptionAtBounds(args, j, p);
      forall q | p < q < |args| && OptionAt(args, j, q)
        ensures args[q] != "--duration"
      {
        OptionAtStep(args, i, q);
      }
    }
  }

  /** The duration after the scan is the value of the last `--duration` it
      reads. */
  lemma {:induction false} ScanDurationLast(env: Collaborators, args: seq<string>, i: nat, o: Options)
    requires i <= |args| && o.duration >= 0.0
    requires ScanOptions(env, args, i, o).Ok?
    ensures forall p: nat :: LastDurationAt(args, i, p) ==>
              && p + 1 < |args| && env.parseDouble(args[p + 1]).Some?
              && ScanOptions(env, args, i, o).value.options.duration == env.parseDouble(args[p + 1]).value
    decreases |args| - i
  {
    if i < |args| && IsOption(args[i]) {
      var a := args[i];
      var j := StepOver(args, i);
      var o' := if IsFlag(a) then SetFlag(o, a) else ApplyValued(env, a, args[i + 1], o).value;
      assert ScanOptions(env, args, i, o) == ScanOptions(env, args, j, o');
      ScanDurationLast(env, args, j, o');
      ScanDurationSet(env, args, j, o');
      forall p: nat | LastDurationAt(args, i, p)
        ensures p + 1 < |args| && env.parseDouble(args[p + 1]).Some?
        ensures ScanOptions(env, args, j, o').value.options.duration == env.parseDouble(args[p + 1]).value
      {
        LastDurationStep(args, i, p);
      }
    }
  }
  /** A `--duration` the scan reads whose value is missing, does not
      parse, or is not positive is rejected, wherever it stands among the
      options. */
  lemma BadDurationRejected(env: Collaborators, args: seq<string>, p: nat)
    requires p < |args| && OptionAt(args, 0, p) && args[p] == "--duration"
    requires p + 1 == |args| || env.parseDouble(args[p + 1]).None? || env.parseDouble(args[p + 1]).value <= 0.0
    ensures ParseOptions(env, args).Err?
  {
    if ScanOptions(env, args, 0, Defaults).Ok? {
      ScanDurationsValid(env, args, 0, Defaults);
      assert false;
    }
  }

  /** As the first argument, a bad duration is the error reported. */
  lemma BadDurationFirstRejected(env: Collaborators, text: string, rest: seq<string>)
    requires env.parseDouble(text).None? || env.parseDouble(text).value <= 0.0
    ensures ParseOptions(env, ["--duration", text] + rest) == Err(InvalidDuration(text))
  {
    var args := ["--duration", text] + rest;
    assert args[0] == "--duration" && args[1] == text;
  }

  /** With a `--duration`, the duration is the value of the last one and
      the workload is `sleep` with that value formatted. */
  lemma ParsedDuration(env: Collaborators, args: seq<string>, p: nat)
    requires LastDurationAt(args, 0, p)
    requires ParseOptions(env, args).Ok?
    ensures p + 1 < |args| && env.parseDouble(args[p + 1]).Some?
    ensures ParseOptions(env, args).value.0.duration == env.parseDouble(args[p + 1]).value
    ensures ParseOptions(env, args).value.1 == ["sleep", env.formatDouble(env.parseDouble(args[p + 1]).value)]
  {
    ScanDurationLast(env, args, 0, Defaults);
    ScanDurationSet(env, args, 0, Defaults);
  }

  /** `--duration d` alone becomes the workload `sleep d`. */
  lemma DurationRewritten(env: Collaborators, text: string)
    requires env.parseDouble(text).Some? && env.parseDouble(text).value > 0.0
    ensures ParseOptions(env, ["--duration", text]) ==
              Ok((Defaults.(duration := env.parseDouble(text).value),
                  ["sleep", env.formatDouble(env.parseDouble(text).value)]))
  {
    var args := ["--duration", text];
    var o := Defaults.(duration := env.parseDouble(text).value);
    assert ApplyValued(env, "--duration", text, Defaults) == Ok(o);
    assert ScanOptions(env, args, 0, Defaults) == ScanOptions(env, args, 2, o);
    assert ScanOptions(env, args, 2, o) == Ok(Scan(o, 2));
  }

  /** A `--duration` together with a command is rejected, wherever the
      duration stands among the options: with that error when the scan
      succeeds and the collection is not system-wide. */
  lemma DurationWithCommandRejected(env: Collaborators, args: seq<string>, p: nat, n: nat)
    requires p < |args| && OptionAt(args, 0, p) && args[p] == "--duration"
    requires ScannedFrom(args, 0, n) && n < |args|
    ensures ParseOptions(env, args).Err?
    ensures ScanOptions(env, args, 0, Defaults).Ok? && !ScanOptions(env, args, 0, Defaults).value.options.systemWide ==>
              ParseOptions(env, args) == Err(DurationWithCommand)
  {
    var scan := ScanOptions(env, args, 0, Defaults);
    if scan.Ok? {
      assert Consumed(args, 0, "--duration");
      ScanDurationSet(env, args, 0, Defaults);
      ScannedFromUnique(args, 0, n, scan.value.next);
    }
  }

  /** The default events of the program, in order. */
  const DefaultMeasuredEventTypes: seq<string> := [
    "cpu-cycles", "stalled-cycles-frontend", "stalled-cycles-backend",
    "instructions", "branch-instructions", "branch-misses",
    "task-clock", "context-switches", "page-faults"]

  /** The defaults among `names` that are known and supported, in order. */
  function SupportedIn(env: Collaborators, names: seq<string>): (r: seq<Selection>)
    ensures |r| <= |names|
    ensures |r| == 0 <==> forall k :: 0 <= k < |names| ==> !env.defaultSupported(names[k])
    decreases |names|
  {
    if |names| == 0 then []
    else (if env.defaultSupported(names[0]) then [Single(names[0])] else []) + SupportedIn(env, names[1..])
  }

  /** Adds, in order, each default event that is known and supported,
      failing at the first one whose addition fails; an unsupported default
      is skipped. */
  function AddDefaults(env: Collaborators, names: seq<string>, acc: seq<Selection>): (r: Result<seq<Selection>, ParseError>)
    ensures r.Ok? ==> r.value == acc + SupportedIn(env, names)
    ensures r.Ok? <==> forall k :: 0 <= k < |names| && env.defaultSupported(names[k]) ==> env.addEventType(names[k])
    decreases |names|
  {
    if |names| == 0 then Ok(acc)
    else
      var n := names[0];
      assert forall k :: 1 <= k < |names| ==> names[1..][k - 1] == names[k];
      if env.defaultSupported(n) then
        if env.addEventType(n) then
          var r := AddDefaults(env, names[1..], acc + [Single(n)]);
          assert acc + [Single(n)] + SupportedIn(env, names[1..]) == acc + SupportedIn(env, names);
          r
        else Err(EventRejected(n))
      else
        var r := AddDefaults(env, names[1..], acc);
        assert SupportedIn(env, names) == SupportedIn(env, names[1..]);
        r
  }

  /** `AddDefaultMeasuredEventTypes`: the supported defaults, in order; it
      succeeds exactly when at least one default is supported and each
      supported one is added. */
  function AddDefaultMeasuredEventTypes(env: Collaborators): (r: Result<seq<Selection>, ParseError>)
    ensures r.Ok? ==> r.value == SupportedIn(env, DefaultMeasuredEventTypes) && |r.value| > 0
    ensures r.Ok? <==>
              && (exists k :: 0 <= k < |DefaultMeasuredEventTypes| && env.defaultSupported(DefaultMeasuredEventTypes[k]))
              && (forall k :: 0 <= k < |DefaultMeasuredEventTypes| && env.defaultSupported(DefaultMeasuredEventTypes[k]) ==>
                    env.addEventType(DefaultMeasuredEventTypes[k]))
  {
    match AddDefaults(env, DefaultMeasuredEventTypes, [])
    case Err(e) => Err(e)
    case Ok(sel) =>
      assert sel == SupportedIn(env, DefaultMeasuredEventTypes);
      if |sel| == 0 then Err(NoDefaultEvents) else Ok(sel)
  }

  /** With only `cpu-cycles` and `task-clock` (the first and seventh
      defaults) supported, exactly those two are selected, in list order. */
  lemma DefaultsExample(env: Collaborators)
    requires env.defaultSupported(DefaultMeasuredEventTypes[0]) && env.defaultSupported(DefaultMeasuredEventTypes[6])
    requires forall k :: 0 <= k < |DefaultMeasuredEventTypes| && k != 0 && k != 6 ==>
               !env.defaultSupported(DefaultMeasuredEventTypes[k])
    requires forall n :: env.addEventType(n)
    ensures AddDefaultMeasuredEventTypes(env) == Ok([Single("cpu-cycles"), Single("task-clock")])
  {
    DefaultsSelected(env);
    assert AddDefaultMeasuredEventTypes(env).Ok? by {
      assert env.defaultSupported(DefaultMeasuredEventTypes[0]);
    }
  }

  lemma DefaultsSelected(env: Collaborators)
    requires env.defaultSupported(DefaultMeasuredEventTypes[0]) && env.defaultSupported(DefaultMeasuredEventTypes[6])
    requires forall k :: 0 <= k < |DefaultMeasuredEventTypes| && k != 0 && k != 6 ==>
               !env.defaultSupported(DefaultMeasuredEventTypes[k])
    ensures SupportedIn(env, DefaultMeasuredEventTypes) == [Single("cpu-cycles"), Single("task-clock")]
  {
    var d := DefaultMeasuredEventTypes;
    TwoSupported(env, d, 0, 6);
    assert d[0] == "cpu-cycles" && d[6] == "task-clock";
  }

  /** When exactly the names at `a` and `b` are supported, the filter keeps
      those two, in order. */
  lemma TwoSupported(env: Collaborators, names: seq<string>, a: nat, b: nat)
    requires a < b < |names|
    requires env.defaultSupported(names[a]) && env.defaultSupported(names[b])
    requires forall k :: 0 <= k < |names| && k != a && k != b ==> !env.defaultSupported(names[k])
    ensures SupportedIn(env, names) == [Single(names[a]), Single(names[b])]
  {
    var n := |names|;
    SupportedSkips(env, names, b + 1, n);
    assert names[n..] == [];
    var fromB := SupportedIn(env, names[b..]);
    SupportedStep(env, names, b);
    assert fromB == [Single(names[b])];
    SupportedSkips(env, names, a + 1, b);
    SupportedStep(env, names, a);
    assert SupportedIn(env, names[a..]) == [Single(names[a])] + fromB;
    SupportedSkips(env, names, 0, a);
    assert names[0..] == names;
  }

  /** One step of the filter at position `k`. */
  lemma SupportedStep(env: Collaborators, names: seq<string>, k: nat)
    requires k < |names|
    ensures SupportedIn(env, names[k..]) ==
              (if env.defaultSupported(names[k]) then [Single(names[k])] else []) + SupportedIn(env, names[k + 1..])
  {
    assert names[k..][1..] == names[k + 1..];
  }

  /** Unsupported names from `lo` to `hi` contribute nothing. */
  lemma {:induction false} SupportedSkips(env: Collaborators, names: seq<string>, lo: nat, hi: nat)
    requires lo <= hi <= |names|
    requires forall k :: lo <= k < hi ==> !env.defaultSupported(names[k])
    ensures SupportedIn(env, names[lo..]) == SupportedIn(env, names[hi..])
    decreases hi - lo
  {
    if lo < hi {
      SupportedStep(env, names, lo);
      SupportedSkips(env, names, lo + 1, hi);
    }
  }
}

=== FILE: readable_count.dfy ===
/** The human-readable count column of a summary (cmd_stat.cpp, the private
    `CounterSummary::ReadableCountValue`): clock events are shown in
    milliseconds, every other event as its decimal digits, grouped by
    thousands in table mode and ungrouped in csv mode. */
module ReadableCount {
  import opened UInt64

  predicate IsDigit(c: char) {
    '0' <= c <= '9'
  }

  predicate AllDigits(s: string) {
    forall k :: 0 <= k < |s| ==> IsDigit(s[k])
  }

  function DigitChar(d: nat): (c: char)
    requires d < 10
    ensures IsDigit(c)
  {
    (48 + d) as char
  }

  function DigitValue(c: char): (d: nat)
    requires IsDigit(c)
    ensures d < 10
  {
    (c as int) - 48
  }

  /** The `%PRIu64` rendering of `n`: its decimal digits, most significant
      first, with no leading zero. */
  function DecimalString(n: nat): (s: string)
    ensures |s| >= 1 && AllDigits(s)
    ensures s[0] == '0' ==> n == 0
    decreases n
  {
    if n < 10 then [DigitChar(n)] else DecimalString(n / 10) + [DigitChar(n % 10)]
  }

  /** The number a string of decimal digits denotes. */
  function DecimalValue(s: string): nat
    requires AllDigits(s)
  {
    if |s| == 0 then 0 else 10 * DecimalValue(s[..|s| - 1]) + DigitValue(s[|s| - 1])
  }

  /** Reading the printed digits back gives the count. */
  lemma {:induction false} DecimalRoundTrip(n: nat)
    ensures DecimalValue(DecimalString(n)) == n
  {
    var s := DecimalString(n);
    if n >= 10 {
      DecimalRoundTrip(n / 10);
      assert s[..|s| - 1] == DecimalString(n / 10);
    }
  }

  /** Every canonical digit string (non-empty, no leading zero unless it is
      "0") is the printed form of exactly the number it denotes. */
  lemma {:induction false} DecimalCanonical(s: string)
    requires |s| >= 1 && AllDigits(s)
    requires s[0] == '0' ==> |s| == 1
    ensures DecimalString(DecimalValue(s)) == s
    decreases |s|
  {
    if |s| > 1 {
      var init := s[..|s| - 1];
      DecimalCanonical(init);
      PositiveValue(init);
      var v := DecimalValue(s);
      assert v / 10 == DecimalValue(init);
      assert v % 10 == DigitValue(s[|s| - 1]);
      assert DigitChar(DigitValue(s[|s| - 1])) == s[|s| - 1];
      assert s == init + [s[|s| - 1]];
    } else {
      assert DigitChar(DigitValue(s[0])) == s[0];
    }
  }

  lemma {:induction false} PositiveValue(s: string)
    requires |s| >= 1 && AllDigits(s) && s[0] != '0'
    ensures DecimalValue(s) >= 1
    decreases |s|
  {
    if |s| > 1 {
      PositiveValue(s[..|s| - 1]);
    }
  }

  /** `u` (a multiple of three digits long) with a ',' before every group of
      three. */
  function Commas(u: string): string
    requires |u| % 3 == 0
  {
    if |u| == 0 then [] else [','] + u[..3] + Commas(u[3..])
  }

  /** Table-mode grouping: the leading group holds one to three digits and
      every later group exactly three, each later group preceded by ','. */
  function Grouped(s: string): string
    requires |s| >= 1
  {
    var lead := LeadLength(|s|);
    s[..lead] + Commas(s[lead..])
  }

  /** `r` with every ',' deleted. */
  function StripCommas(r: string): string {
    if |r| == 0 then [] else (if r[0] == ',' then [] else [r[0]]) + StripCommas(r[1..])
  }

  lemma {:induction false} StripCommasAppend(a: string, b: string)
    ensures StripCommas(a + b) == StripCommas(a) + StripCommas(b)
    decreases |a|
  {
    if |a| > 0 {
      assert (a + b)[1..] == a[1..] + b;
      StripCommasAppend(a[1..], b);
    } else {
      assert a + b == b;
    }
  }

  lemma {:induction false} StripCommasOfDigits(s: string)
    requires AllDigits(s)
    ensures StripCommas(s) == s
    decreases |s|
  {
    if |s| > 0 {
      StripCommasOfDigits(s[1..]);
      assert s == [s[0]] + s[1..];
    }
  }

  lemma {:induction false} CommasShape(u: string)
    requires |u| % 3 == 0 && AllDigits(u)
    ensures |Commas(u)| % 4 == 0
    ensures StripCommas(Commas(u)) == u
    ensures forall p :: 0 <= p < |Commas(u)| ==> (Commas(u)[p] == ',' <==> p % 4 == 0)
    decreases |u|
  {
    if |u| > 0 {
      var rest := Commas(u[3..]);
      CommasShape(u[3..]);
      var c := Commas(u);
      assert c == [','] + u[..3] + rest;
      assert |c| == |rest| + 4;
      forall p | 0 <= p < |c|
        ensures c[p] == ',' <==> p % 4 == 0
      {
        if p >= 4 {
          assert c[p] == rest[p - 4];
        }
      }
      StripCommasAppend([','] + u[..3], rest);
      StripCommasAppend([','], u[..3]);
      StripCommasOfDigits(u[..3]);
      assert u == u[..3] + u[3..];
    }
  }

  /** Length of the leading digit group of an `n`-digit number. */
  function LeadLength(n: nat): (lead: nat)
    requires n >= 1
    ensures 1 <= lead <= 3 && lead <= n && (n - lead) % 3 == 0
  {
    (n - 1) % 3 + 1
  }

  lemma LeadLengthUnique(n: nat, j: nat)
    requires n >= 1 && 1 <= j <= 3 && j <= n && (n - j) % 3 == 0
    ensures j == LeadLength(n)
  {
    var lead := LeadLength(n);
    var q1, q2 := (n - j) / 3, (n - lead) / 3;
    assert n - j == 3 * q1;
    assert n - lead == 3 * q2;
  }

  lemma DistanceModFour(c: nat, q: nat)
    requires c % 4 == 0 && q <= c
    ensures (c - q) % 4 == 0 <==> q % 4 == 0
  {
    var k := c / 4;
    assert c == 4 * k;
    var a, b := q / 4, q % 4;
    assert q == 4 * a + b;
    assert c - q == 4 * (k - a - 1) + (4 - b);
  }

  /** The grouped form of a digit string: deleting the commas gives the
      digits back, and a character is a comma exactly when the number of
      characters from it to the end is a multiple of four, so commas stand
      between groups of exactly three digits counted from the right and never
      at the front. At most three digits get no comma at all. */
  lemma GroupedShape(s: string)
    requires |s| >= 1 && AllDigits(s)
    ensures StripCommas(Grouped(s)) == s
    ensures forall p :: 0 <= p < |Grouped(s)| ==> (Grouped(s)[p] == ',' <==> (|Grouped(s)| - p) % 4 == 0)
    ensures Grouped(s)[0] != ','
    ensures |s| <= 3 ==> Grouped(s) == s
  {
    var lead := LeadLength(|s|);
    var head, tail := s[..lead], s[lead..];
    var r := Grouped(s);
    CommasShape(tail);
    var c := Commas(tail);
    assert r == head + c;
    StripCommasAppend(head, c);
    StripCommasOfDigits(head);
    assert s == head + tail;
    CommaPositions(head, c);
    if |s| <= 3 {
      assert lead == |s|;
    }
  }

  /** Digits of a short leading group followed by comma-led groups of four:
      the commas are exactly where the distance to the end is a multiple of
      four. */
  lemma CommaPositions(head: string, c: string)
    requires 1 <= |head| <= 3 && AllDigits(head)
    requires |c| % 4 == 0
    requires forall q :: 0 <= q < |c| ==> (c[q] == ',' <==> q % 4 == 0)
    ensures forall p :: 0 <= p < |head + c| ==> ((head + c)[p] == ',' <==> (|head + c| - p) % 4 == 0)
  {
    var r, lead := head + c, |head|;
    forall p | 0 <= p < |r|
      ensures r[p] == ',' <==> (|r| - p) % 4 == 0
    {
      if p < lead {
        assert r[p] == head[p];
        assert |r| - p == |c| + 4 - (4 - (lead - p));
        DistanceModFour(|c| + 4, 4 - (lead - p));
      } else {
        assert r[p] == c[p - lead];
        DistanceModFour(|c|, p - lead);
      }
    }
  }

  /** Inserting ',' in front of a full group of three extends the grouped
      tail by one group. */
  lemma InsertComma(s: string, i: nat)
    requires i + 3 <= |s| && (|s| - i - 3) % 3 == 0
    ensures (s[..i] + s[i..i + 3] + Commas(s[i + 3..]))[..i] + [',']
              + (s[..i] + s[i..i + 3] + Commas(s[i + 3..]))[i..]
            == s[..i] + Commas(s[i..])
  {
    var r := s[..i] + s[i..i + 3] + Commas(s[i + 3..]);
    assert r[..i] == s[..i];
    assert r[i..] == s[i..i + 3] + Commas(s[i + 3..]);
    assert s[i..][..3] == s[i..i + 3] && s[i..][3..] == s[i + 3..];
  }

  /** Moving the cursor one digit left: the digit joins the leading group. */
  lemma ShiftLeft(s: string, i: nat, j: nat)
    requires 1 <= i && i + j <= |s|
    ensures s[..i] + s[i..i + j] == s[..i - 1] + s[i - 1..i + j]
  {
    assert s[..i] == s[..i - 1] + s[i - 1..i];
    assert s[i - 1..i + j] == s[i - 1..i] + s[i..i + j];
  }

  /** The insertion loop of `ReadableCountValue` as written: walk `s` from
      its last index down to 1, counting digits in `j`, and insert ',' in
      front of every third one. */
  method GroupThousands(s: string) returns (r: string)
    requires |s| >= 1
    ensures r == Grouped(s)
  {
    r := s;
    var n := |s|;
    var i := n - 1;
    var j := 1;
    while i > 0
      invariant 0 <= i <= n - 1
      invariant GroupingAt(s, i, j, r)
    {
      r, j := GroupStep(s, i, j, r);
      i := i - 1;
    }
    LeadLengthUnique(n, j);
  }

  /** The state of the insertion loop at cursor `i`: `j` digits (at most a
      group) lie in front of the grouped tail. */
  predicate GroupingAt(s: string, i: nat, j: nat, r: string) {
    && 1 <= j <= 3 && i + j <= |s| && (|s| - i - j) % 3 == 0
    && r == s[..i] + s[i..i + j] + Commas(s[i + j..])
  }

  /** One iteration of the insertion loop: insert ',' when the leading
      group is full, then move the cursor one digit left. */
  method GroupStep(s: string, i: nat, j: nat, r: string) returns (r': string, j': nat)
    requires 1 <= i && GroupingAt(s, i, j, r)
    ensures GroupingAt(s, i - 1, j', r')
  {
    r', j' := r, j;
    if j == 3 {
      InsertComma(s, i);
      r' := r[..i] + [','] + r[i..];
      assert s[..i] + s[i..i] == s[..i];
      j' := 0;
    }
    ShiftLeft(s, i, j');
    j' := j' + 1;
  }

  /** What the count column shows: a clock count (nanoseconds) is printed
      as milliseconds with `%lf`, whose digits are left out; every other
      count is printed as text. */
  datatype CountText = Milliseconds(nanos: nat) | Text(text: string)

  predicate IsClockEvent(typeName: string) {
    typeName == "cpu-clock" || typeName == "task-clock"
  }

  /** `ReadableCountValue(csv)` of a summary with this type name and count. */
  function ReadableCountValue(typeName: string, count: u64, csv: bool): (r: CountText)
    ensures IsClockEvent(typeName) <==> r.Milliseconds?
    ensures r.Milliseconds? ==> r.nanos == count
    ensures r.Text? ==> r.text == DigitText(count, csv)
  {
    if IsClockEvent(typeName) then Milliseconds(count) else Text(DigitText(count, csv))
  }

  /** The digit text of a non-clock count. In csv mode it is exactly the
      decimal digits of the count. In table mode deleting the commas gives
      those digits back, a character is a comma exactly when the number of
      characters from it to the end is a multiple of four (so commas separate
      groups of three digits counted from the right), there is never a
      leading comma, and a count below 1000 gets no comma. */
  function DigitText(count: nat, csv: bool): (t: string)
    ensures |t| >= 1 && t[0] != ','
    ensures StripCommas(t) == DecimalString(count)
    ensures csv ==> AllDigits(t) && DecimalValue(t) == count
    ensures !csv ==> forall p :: 0 <= p < |t| ==> (t[p] == ',' <==> (|t| - p) % 4 == 0)
    ensures count < 1000 ==> t == DecimalString(count)
  {
    var s := DecimalString(count);
    DecimalRoundTrip(count);
    StripCommasOfDigits(s);
    GroupedShape(s);
    DecimalLength(count);
    if csv then s else Grouped(s)
  }

  lemma DecimalLength(n: nat)
    ensures n < 1000 ==> |DecimalString(n)| <= 3
  {
    if 10 <= n < 1000 {
      var a := n / 10;
      assert |DecimalString(n)| == |DecimalString(a)| + 1;
      if a >= 10 {
        assert a / 10 < 10;
        assert |DecimalString(a)| == |DecimalString(a / 10)| + 1;
      }
    }
  }

  lemma DigitsOf1234567()
    ensures DecimalString(1234567) == "1234567"
  {
    var s := "1234567";
    assert AllDigits(s) && s[0] != '0';
    DecimalCanonical(s);
    var p1, p2, p3, p4, p5, p6 := s[..1], s[..2], s[..3], s[..4], s[..5], s[..6];
    assert p1 == "1" && p2 == "12" && p3 == "123" && p4 == "1234" && p5 == "12345" && p6 == "123456";
    assert DigitValue('1') == 1 && DigitValue('2') == 2 && DigitValue('3') == 3 && DigitValue('4') == 4;
    assert DigitValue('5') == 5 && DigitValue('6') == 6 && DigitValue('7') == 7;
    assert DecimalValue(p1) == 1 by { assert p1[..0] == []; }
    assert DecimalValue(p2) == 12 by { assert p2[..1] == p1; }
    assert DecimalValue(p3) == 123 by { assert p3[..2] == p2; }
    assert DecimalValue(p4) == 1234 by { assert p4[..3] == p3; }
    assert DecimalValue(p5) == 12345 by { assert p5[..4] == p4; }
    assert DecimalValue(p6) == 123456 by { assert p6[..5] == p5; }
    assert DecimalValue(s) == 1234567 by { assert s[..6] == p6; }
  }

  lemma GroupedOf1234567()
    ensures Grouped("1234567") == "1,234,567"
  {
    var s := "1234567";
    assert LeadLength(7) == 1;
    var t := s[1..];
    assert t == "234567";
    assert t[..3] == "234" && t[3..] == "567";
    assert "567"[..3] == "567" && "567"[3..] == [];
    assert Commas("567") == ",567";
    assert Commas(t) == ",234,567";
  }

  /** The worked example: 1234567 is "1,234,567" in a table and "1234567"
      in csv; a task-clock count stays a nanosecond count shown in ms. */
  lemma ReadableCountExample()
    ensures ReadableCountValue("instructions", 1234567, true) == Text("1234567")
    ensures ReadableCountValue("instructions", 1234567, false) == Text("1,234,567")
    ensures ReadableCountValue("task-clock", 2000000, false) == Milliseconds(2000000)
  {
    DigitsOf1234567();
    GroupedOf1234567();
    assert !IsClockEvent("instructions");
  }
}

=== FILE: report.dfy ===
/** The summary list `StatCommand::ShowCounters` reports: one summary per
    selection, then the generated summaries, each with its comment. */
module Report {
  import opened ReadableCount
  import opened Summary
  import opened Aggregation
  import opened Summaries
  import opened Comments

  /** Generated summaries copy the scale of an original one, so every scale
      stays at least 1. */
  lemma AutoGenerateKeepsScales(ss: seq<CounterSummary>, csv: bool)
    requires ScalesAtLeastOne(ss)
    ensures ScalesAtLeastOne(AutoGenerate(ss, csv))
  {
    var r := AutoGenerate(ss, csv);
    AutoGenerateAppendsOnly(ss, csv);
    forall p | 0 <= p < |r|
      ensures r[p].scale >= 1.0
    {
      if p < |ss| {
        assert r[p] == r[..|ss|][p];
      } else {
        AutoGenerateContent(ss, csv, p);
      }
    }
  }

  /** Every summary shows the readable form of its own count. */
  predicate CountsReadable(ss: seq<CounterSummary>, csv: bool) {
    forall k :: 0 <= k < |ss| ==> ss[k].readableCount == ReadableCountValue(ss[k].typeName, ss[k].count, csv)
  }

  /** Generated summaries are built by the constructor, so they too show
      the readable form of their count. */
  lemma AutoGenerateKeepsReadable(ss: seq<CounterSummary>, csv: bool)
    requires CountsReadable(ss, csv)
    ensures CountsReadable(AutoGenerate(ss, csv), csv)
  {
    var r := AutoGenerate(ss, csv);
    AutoGenerateAppendsOnly(ss, csv);
    forall p | 0 <= p < |r|
      ensures r[p].readableCount == ReadableCountValue(r[p].typeName, r[p].count, csv)
    {
      if p < |ss| {
        assert r[p] == r[..|ss|][p];
      } else {
        assert Justified(ss, r[p], csv);
        var i :| 0 <= i < |ss| && GeneratedFrom(ss, r[p], i, csv);
        assert r[p] == Combine(ss[i], ss[FindSummary(ss, ss[i].typeName, "k").value], csv);
      }
    }
  }

  /** The summaries of the report, before they are printed. */
  function ShowCounters(counters: seq<CountersInfo>, csv: bool, duration: real): (r: seq<CounterSummary>)
    requires duration > 0.0
    ensures |counters| <= |r|
    ensures forall k :: 0 <= k < |counters| ==>
              && r[k].typeName == counters[k].selection.typeName
              && r[k].modifier == counters[k].selection.modifier
              && r[k].groupId == counters[k].selection.groupId
              && r[k].count == WrappedSum(counters[k].counters, Value)
              && r[k].scale == Scale(WrappedSum(counters[k].counters, Enabled),
                                     WrappedSum(counters[k].counters, Running))
              && !r[k].autoGenerated
    ensures forall p :: |counters| <= p < |r| ==> r[p].autoGenerated && r[p].modifier == ""
    ensures forall k :: 0 <= k < |r| ==> r[k].scale >= 1.0
    ensures CountsReadable(r, csv)
    ensures SameExceptComments(AutoGenerate(SummarizeAll(counters, csv), csv), r)
  {
    var summed := SummarizeAll(counters, csv);
    var generated := AutoGenerate(summed, csv);
    AutoGenerateAppendsOnly(summed, csv);
    AutoGenerateKeepsScales(summed, csv);
    AutoGenerateKeepsReadable(summed, csv);
    assert forall k :: 0 <= k < |summed| ==> generated[k] == summed[k] by {
      forall k | 0 <= k < |summed| ensures generated[k] == summed[k] {
        assert generated[k] == generated[..|summed|][k];
      }
    }
    GenerateComments(generated, duration)
  }

  /** Every comment of the report is the one its rule derives from the
      summaries as they stand after generation. */
  lemma ShowCountersComments(counters: seq<CountersInfo>, csv: bool, duration: real, k: nat)
    requires duration > 0.0 && k < |ShowCounters(counters, csv, duration)|
    ensures var generated := AutoGenerate(SummarizeAll(counters, csv), csv);
            && k < |generated|
            && ShowCounters(counters, csv, duration)[k].comment == CommentFor(generated, generated[k], duration)
  {
  }

  /** The same pipeline with the loops as written: the outer aggregation
      loop, the auto-generation loop and the in-place comment loop. */
  method ShowCountersLoops(counters: seq<CountersInfo>, csv: bool, duration: real) returns (r: seq<CounterSummary>)
    requires duration > 0.0
    ensures r == ShowCounters(counters, csv, duration)
  {
    var summed: seq<CounterSummary> := [];
    var k := 0;
    while k < |counters|
      invariant k <= |counters|
      invariant summed == SummarizeAll(counters[..k], csv)
    {
      var s := SummarizeSelection(counters[k], csv);
      summed := summed + [s];
      k := k + 1;
    }
    assert counters[..k] == counters;
    var generated := AutoGenerateSummaries(summed, csv);
    AutoGenerateKeepsScales(summed, csv);
    r := GenerateCommentsInPlace(generated, duration);
  }
}

=== FILE: summaries.dfy ===
/** The `CounterSummaries` collection of cmd_stat.cpp: an insertion-ordered
    list of summaries with first-match lookup and the synthesis of combined
    user+kernel summaries. */
module Summaries {
  import opened Results
  import opened UInt64
  import opened Summary

  predicate Matches(s: CounterSummary, typeName: string, modifier: string) {
    s.typeName == typeName && s.modifier == modifier
  }

  /** First index at or after `from` whose entry matches. */
  function FindFrom(ss: seq<CounterSummary>, typeName: string, modifier: string, from: nat): (r: Option<nat>)
    requires from <= |ss|
    ensures r.Some? ==> from <= r.value < |ss| && Matches(ss[r.value], typeName, modifier)
    ensures r.Some? ==> forall k :: from <= k < r.value ==> !Matches(ss[k], typeName, modifier)
    ensures r.None? <==> forall k :: from <= k < |ss| ==> !Matches(ss[k], typeName, modifier)
    decreases |ss| - from
  {
    if from == |ss| then None
    else if Matches(ss[from], typeName, modifier) then Some(from)
    else FindFrom(ss, typeName, modifier, from + 1)
  }

  /** `FindSummary(type_name, modifier)`: the index of the first entry with
      this key, and `None` (the null pointer) exactly when no entry has it. */
  function FindSummary(ss: seq<CounterSummary>, typeName: string, modifier: string): (r: Option<nat>)
    ensures r.Some? ==> r.value < |ss| && Matches(ss[r.value], typeName, modifier)
    ensures r.Some? ==> forall k :: 0 <= k < r.value ==> !Matches(ss[k], typeName, modifier)
    ensures r.None? <==> forall k :: 0 <= k < |ss| ==> !Matches(ss[k], typeName, modifier)
  {
    FindFrom(ss, typeName, modifier, 0)
  }

  /** Appending entries that do not have the key leaves the lookup unchanged. */
  lemma FindUnaffected(ss: seq<CounterSummary>, more: seq<CounterSummary>, typeName: string, modifier: string)
    requires forall k :: 0 <= k < |more| ==> !Matches(more[k], typeName, modifier)
    ensures FindSummary(ss + more, typeName, modifier) == FindSummary(ss, typeName, modifier)
  {
    forall k | |ss| <= k < |ss + more|
      ensures !Matches((ss + more)[k], typeName, modifier)
    {
      assert (ss + more)[k] == more[k - |ss|];
    }
    forall k | 0 <= k < |ss|
      ensures (ss + more)[k] == ss[k]
    {
    }
  }

  /** A key found before an append is still found at the same place. */
  lemma FindStable(ss: seq<CounterSummary>, e: CounterSummary, typeName: string, modifier: string)
    requires FindSummary(ss, typeName, modifier).Some?
    ensures FindSummary(ss + [e], typeName, modifier) == FindSummary(ss, typeName, modifier)
  {
    var k := FindSummary(ss, typeName, modifier).value;
    assert (ss + [e])[k] == ss[k];
  }

  /** The summary synthesized from a user-space summary `u` and a
      kernel-space summary `k` of the same event. */
  function Combine(u: CounterSummary, k: CounterSummary, csv: bool): (c: CounterSummary)
    ensures c.typeName == u.typeName && c.modifier == "" && c.autoGenerated
    ensures c.groupId == u.groupId && c.scale == u.scale
    ensures u.count + k.count < TWO_64 ==> c.count == u.count + k.count
    ensures u.count + k.count >= TWO_64 ==> c.count == u.count + k.count - TWO_64
  {
    MakeSummary(u.typeName, "", u.groupId, AddWrap(u.count, k.count), u.scale, true, csv)
  }

  /** One iteration of `AutoGenerateSummaries` on the current list `acc` for
      the entry `s`. */
  function Consider(acc: seq<CounterSummary>, s: CounterSummary, csv: bool): seq<CounterSummary> {
    if s.modifier == "u" then
      match FindSummary(acc, s.typeName, "k")
      case Some(k) =>
        if IsMonitoredAtTheSameTime(acc[k], s) && FindSummary(acc, s.typeName, "").None? then
          acc + [Combine(s, acc[k], csv)]
        else acc
      case None => acc
    else acc
  }

  /** Entry `i` of the original list is a user-space summary whose first
      kernel-space partner was monitored at the same time. */
  predicate Eligible(ss: seq<CounterSummary>, i: nat)
    requires i < |ss|
  {
    && ss[i].modifier == "u"
    && var k := FindSummary(ss, ss[i].typeName, "k");
    && k.Some?
    && IsMonitoredAtTheSameTime(ss[k.value], ss[i])
  }

  /** Entry `e` is the combination generated from original entry `i`. */
  predicate GeneratedFrom(ss: seq<CounterSummary>, e: CounterSummary, i: nat, csv: bool)
    requires i < |ss|
  {
    && Eligible(ss, i)
    && FindSummary(ss, ss[i].typeName, "").None?
    && e == Combine(ss[i], ss[FindSummary(ss, ss[i].typeName, "k").value], csv)
  }

  /** Entry `e` was generated from some original entry. */
  predicate Justified(ss: seq<CounterSummary>, e: CounterSummary, csv: bool) {
    exists i :: 0 <= i < |ss| && GeneratedFrom(ss, e, i, csv)
  }

  /** What holds of `r` after the first `n` original entries were processed:
      the originals are untouched, each appended entry is the combination of
      an eligible user-space summary and its kernel-space partner for a type
      name that had no unmodified summary, no two appended entries share a
      type name, and every eligible entry among the first `n` now has an
      unmodified summary. */
  predicate Synthesized(ss: seq<CounterSummary>, r: seq<CounterSummary>, n: nat, csv: bool)
    requires n <= |ss|
  {
    && |ss| <= |r|
    && r[..|ss|] == ss
    && (forall p :: |ss| <= p < |r| ==> Justified(ss, r[p], csv))
    && (forall p, q :: |ss| <= p < q < |r| ==> r[p].typeName != r[q].typeName)
    && (forall i {:trigger Eligible(ss, i)} :: 0 <= i < n && Eligible(ss, i) ==> FindSummary(r, ss[i].typeName, "").Some?)
  }

  /** The first `n` iterations of the loop, which only ever look at original
      entries (every appended entry has an empty modifier). */
  function AutoGenerateUpTo(ss: seq<CounterSummary>, n: nat, csv: bool): (r: seq<CounterSummary>)
    requires n <= |ss|
    ensures Synthesized(ss, r, n, csv)
    decreases n
  {
    if n == 0 then
      assert ss[..|ss|] == ss;
      ss
    else
      var acc := AutoGenerateUpTo(ss, n - 1, csv);
      var r := Consider(acc, ss[n - 1], csv);
      ConsiderKeeps(ss, acc, n - 1, csv);
      r
  }

  /** The body of `AutoGenerateUpTo`'s proof: one iteration keeps
      `Synthesized` and covers entry `i`. */
  lemma ConsiderKeeps(ss: seq<CounterSummary>, acc: seq<CounterSummary>, i: nat, csv: bool)
    requires i < |ss| && Synthesized(ss, acc, i, csv)
    ensures Synthesized(ss, Consider(acc, ss[i], csv), i + 1, csv)
  {
    var s := ss[i];
    assert acc[i] == s;
    AppendedAreUnmodified(ss, acc, i, csv);
    if s.modifier == "u" {
      LookupThroughAppended(ss, acc, s.typeName, "k");
      var k := FindSummary(acc, s.typeName, "k");
      if k.Some? {
        assert acc[k.value] == ss[k.value];
      }
      if k.Some? && IsMonitoredAtTheSameTime(acc[k.value], s) && FindSummary(acc, s.typeName, "").None? {
        LookupThroughAppended(ss, acc, s.typeName, "");
        AppendKeeps(ss, acc, i, csv);
      } else {
        NoAppendKeeps(ss, acc, i, csv);
      }
    } else {
      NoAppendKeeps(ss, acc, i, csv);
    }
  }

  /** The iteration for an eligible entry with no unmodified summary yet. */
  lemma AppendKeeps(ss: seq<CounterSummary>, acc: seq<CounterSummary>, i: nat, csv: bool)
    requires i < |ss| && Synthesized(ss, acc, i, csv) && acc[i] == ss[i]
    requires Eligible(ss, i) && FindSummary(ss, ss[i].typeName, "").None?
    requires FindSummary(acc, ss[i].typeName, "").None?
    requires FindSummary(acc, ss[i].typeName, "k") == FindSummary(ss, ss[i].typeName, "k")
    ensures Synthesized(ss, Consider(acc, ss[i], csv), i + 1, csv)
  {
    var s := ss[i];
    var k := FindSummary(ss, s.typeName, "k").value;
    assert acc[k] == ss[k];
    var e := Combine(s, ss[k], csv);
    var r := Consider(acc, s, csv);
    assert r == acc + [e];
    assert GeneratedFrom(ss, e, i, csv);
    assert r[..|ss|] == ss by {
      assert r[..|ss|] == acc[..|ss|];
    }
    forall p | |ss| <= p < |r|
      ensures Justified(ss, r[p], csv)
    {
      if p < |acc| {
        assert r[p] == acc[p];
      } else {
        assert r[p] == e;
      }
    }
    forall p, q | |ss| <= p < q < |r|
      ensures r[p].typeName != r[q].typeName
    {
      if q == |acc| {
        assert r[p] == acc[p];
        assert !Matches(acc[p], s.typeName, "");
      } else {
        assert r[p] == acc[p] && r[q] == acc[q];
      }
    }
    forall j | 0 <= j < i + 1 && Eligible(ss, j)
      ensures FindSummary(r, ss[j].typeName, "").Some?
    {
      if j < i {
        FindStable(acc, e, ss[j].typeName, "");
      } else {
        assert r[|acc|] == e;
      }
    }
  }

  /** The iterations that append nothing. */
  lemma NoAppendKeeps(ss: seq<CounterSummary>, acc: seq<CounterSummary>, i: nat, csv: bool)
    requires i < |ss| && Synthesized(ss, acc, i, csv) && acc[i] == ss[i]
    requires Consider(acc, ss[i], csv) == acc
    requires ss[i].modifier == "u" ==>
               FindSummary(acc, ss[i].typeName, "k") == FindSummary(ss, ss[i].typeName, "k")
    ensures Synthesized(ss, acc, i + 1, csv)
  {
    var s := ss[i];
    forall j | 0 <= j < i + 1 && Eligible(ss, j)
      ensures FindSummary(acc, ss[j].typeName, "").Some?
    {
      if j == i {
        var k := FindSummary(ss, s.typeName, "k").value;
        assert acc[k] == ss[k];
      }
    }
  }

  /** Every appended entry has an empty modifier. */
  lemma AppendedAreUnmodified(ss: seq<CounterSummary>, r: seq<CounterSummary>, n: nat, csv: bool)
    requires n <= |ss| && Synthesized(ss, r, n, csv)
    ensures forall p :: |ss| <= p < |r| ==> r[p].modifier == "" && r[p].autoGenerated
  {
    forall p | |ss| <= p < |r|
      ensures r[p].modifier == "" && r[p].autoGenerated
    {
      assert Justified(ss, r[p], csv);
      var i :| 0 <= i < |ss| && GeneratedFrom(ss, r[p], i, csv);
    }
  }

  /** Looking up a modified key (or the unmodified key of a type name with
      no appended entry) sees only the originals. */
  lemma LookupThroughAppended(ss: seq<CounterSummary>, r: seq<CounterSummary>, typeName: string, modifier: string)
    requires |ss| <= |r| && r[..|ss|] == ss
    requires forall p :: |ss| <= p < |r| ==> !Matches(r[p], typeName, modifier)
    ensures FindSummary(r, typeName, modifier) == FindSummary(ss, typeName, modifier)
  {
    var more := r[|ss|..];
    assert r == ss + more;
    forall k | 0 <= k < |more|
      ensures !Matches(more[k], typeName, modifier)
    {
      assert more[k] == r[|ss| + k];
    }
    FindUnaffected(ss, more, typeName, modifier);
  }

  /** `AutoGenerateSummaries`: the result of running the loop over the whole
      list. */
  function AutoGenerate(ss: seq<CounterSummary>, csv: bool): (r: seq<CounterSummary>)
    ensures Synthesized(ss, r, |ss|, csv)
  {
    AutoGenerateUpTo(ss, |ss|, csv)
  }

  /** The loop as written: it runs over the growing vector, so it also visits
      the entries it appended, which have an empty modifier and change
      nothing. It ends with the same list as `AutoGenerate`. */
  method AutoGenerateSummaries(ss: seq<CounterSummary>, csv: bool) returns (r: seq<CounterSummary>)
    ensures r == AutoGenerate(ss, csv)
  {
    r := ss;
    var i := 0;
    while i < |r|
      invariant i <= |r|
      invariant r == AutoGenerateUpTo(ss, if i < |ss| then i else |ss|, csv)
      decreases (if i < |ss| then |ss| - i else 0), |r| - i
    {
      if i < |ss| {
        assert r[i] == ss[i];
      } else {
        AppendedAreUnmodified(ss, r, |ss|, csv);
      }
      r := Consider(r, r[i], csv);
      i := i + 1;
    }
  }

  /** Only appends: the original entries are unchanged and in order, and the
      appended ones are unmodified and marked generated. */
  lemma AutoGenerateAppendsOnly(ss: seq<CounterSummary>, csv: bool)
    ensures |ss| <= |AutoGenerate(ss, csv)|
    ensures AutoGenerate(ss, csv)[..|ss|] == ss
    ensures forall p :: |ss| <= p < |AutoGenerate(ss, csv)| ==>
              AutoGenerate(ss, csv)[p].modifier == "" && AutoGenerate(ss, csv)[p].autoGenerated
  {
    AppendedAreUnmodified(ss, AutoGenerate(ss, csv), |ss|, csv);
  }

  /** Each appended entry comes from a user-space summary `ss[i]` and the
      first kernel-space summary `ss[k]` of the same type name, monitored at
      the same time: its count is their `uint64_t` sum, its group and scale
      are the user-space summary's, and no unmodified summary of that type
      name existed. No two appended entries share a type name. */
  lemma AutoGenerateContent(ss: seq<CounterSummary>, csv: bool, p: nat)
    requires |ss| <= p < |AutoGenerate(ss, csv)|
    ensures var e := AutoGenerate(ss, csv)[p];
            exists i, k :: 0 <= i < |ss| && 0 <= k < |ss| &&
              ss[i].modifier == "u" && ss[k].modifier == "k" &&
              ss[i].typeName == e.typeName && ss[k].typeName == e.typeName &&
              IsMonitoredAtTheSameTime(ss[k], ss[i]) &&
              e.count == AddWrap(ss[i].count, ss[k].count) &&
              e.groupId == ss[i].groupId && e.scale == ss[i].scale &&
              FindSummary(ss, e.typeName, "").None?
    ensures forall q :: |ss| <= q < |AutoGenerate(ss, csv)| && q != p ==>
              AutoGenerate(ss, csv)[q].typeName != AutoGenerate(ss, csv)[p].typeName
  {
    var r := AutoGenerate(ss, csv);
    assert Justified(ss, r[p], csv);
    var i :| 0 <= i < |ss| && GeneratedFrom(ss, r[p], i, csv);
    var k := FindSummary(ss, ss[i].typeName, "k").value;
    assert ss[k].modifier == "k";
  }

  /** Every user-space summary whose first kernel-space partner ran at the
      same time ends up with an unmodified summary of its type name. */
  lemma AutoGenerateComplete(ss: seq<CounterSummary>, csv: bool, i: nat)
    requires i < |ss| && Eligible(ss, i)
    ensures FindSummary(AutoGenerate(ss, csv), ss[i].typeName, "").Some?
  {
  }

  /** Nothing is appended for a type name that already has an unmodified
      summary, so if the originals have at most one unmodified summary per
      type name, so does the result. */
  lemma AutoGenerateNoDuplicates(ss: seq<CounterSummary>, csv: bool)
    requires forall a, b :: 0 <= a < b < |ss| && ss[a].modifier == "" && ss[b].modifier == "" ==>
               ss[a].typeName != ss[b].typeName
    ensures var r := AutoGenerate(ss, csv);
            forall a, b :: 0 <= a < b < |r| && r[a].modifier == "" && r[b].modifier == "" ==>
              r[a].typeName != r[b].typeName
  {
    var r := AutoGenerate(ss, csv);
    forall a, b | 0 <= a < b < |r| && r[a].modifier == "" && r[b].modifier == ""
      ensures r[a].typeName != r[b].typeName
    {
      if b >= |ss| && a < |ss| {
        AutoGenerateContent(ss, csv, b);
        assert r[a] == ss[a];
        assert Matches(ss[a], r[b].typeName, "") ==> false;
      } else if a < |ss| {
        assert r[a] == ss[a] && r[b] == ss[b];
      }
    }
  }

  /** Running the synthesis a second time appends nothing. */
  lemma {:induction false} AutoGenerateIdempotent(ss: seq<CounterSummary>, csv: bool)
    ensures AutoGenerate(AutoGenerate(ss, csv), csv) == AutoGenerate(ss, csv)
  {
    var r := AutoGenerate(ss, csv);
    AppendedAreUnmodified(ss, r, |ss|, csv);
    SecondPassUnchanged(ss, r, |r|, csv);
  }

  lemma {:induction false} SecondPassUnchanged(ss: seq<CounterSummary>, r: seq<CounterSummary>, n: nat, csv: bool)
    requires r == AutoGenerate(ss, csv) && n <= |r|
    requires forall p :: |ss| <= p < |r| ==> r[p].modifier == ""
    ensures AutoGenerateUpTo(r, n, csv) == r
    decreases n
  {
    if n > 0 {
      SecondPassUnchanged(ss, r, n - 1, csv);
      var s := r[n - 1];
      if n - 1 < |ss| && s.modifier == "u" {
        assert s == ss[n - 1];
        LookupThroughAppended(ss, r, s.typeName, "k");
        var k := FindSummary(r, s.typeName, "k");
        if k.Some? {
          assert r[k.value] == ss[k.value];
          if IsMonitoredAtTheSameTime(r[k.value], s) {
            assert Eligible(ss, n - 1);
          }
        }
      }
    }
  }

  /** `branch-misses:u` counting 30 and `branch-misses:k` counting 20 in one
      group, with no unmodified `branch-misses`, yield one generated
      `branch-misses` summary counting 50. */
  lemma UserKernelExample(u: CounterSummary, k: CounterSummary, csv: bool)
    requires u.typeName == "branch-misses" && u.modifier == "u" && u.count == 30
    requires k.typeName == "branch-misses" && k.modifier == "k" && k.count == 20
    requires u.groupId == k.groupId
    ensures var r := AutoGenerate([u, k], csv);
            && |r| == 3 && r[..2] == [u, k]
            && r[2].typeName == "branch-misses" && r[2].modifier == ""
            && r[2].count == 50 && r[2].autoGenerated
  {
    var ss := [u, k];
    var c := Combine(u, k, csv);
    assert FindSummary(ss, "branch-misses", "k") == Some(1) by {
      assert !Matches(ss[0], "branch-misses", "k") && Matches(ss[1], "branch-misses", "k");
    }
    assert FindSummary(ss, "branch-misses", "") == None by {
      assert !Matches(ss[0], "branch-misses", "") && !Matches(ss[1], "branch-misses", "");
    }
    assert Consider(ss, u, csv) == ss + [c] by {
      assert IsMonitoredAtTheSameTime(ss[1], u);
    }
    assert AutoGenerateUpTo(ss, 1, csv) == ss + [c] by {
      assert AutoGenerateUpTo(ss, 0, csv) == ss;
    }
    assert Consider(ss + [c], k, csv) == ss + [c];
  }
}
